=== FILE: README.md ===
# Telegram preview image resolver, modelled in Dafny

The bot server answers a request carrying a Telegram post link
(`https://t.me/<channel>/<id>`) with a local endpoint, `/static/<id>`, for the
post's preview photo. It works like this:

1. The cache key is the link's last `/`-separated segment. The file path is
   that key under `./images`.
2. If anything already exists at that path, the endpoint is returned at once.
3. Otherwise the server GETs the link and insists on status 200. It then
   creates the images directory and parses the page.
4. It walks the tree for the first `img` whose class is
   `tgme_page_photo_image` and takes that image's `src`.
5. A `src` starting with `http` is fetched and stored at the path.
6. A `src` starting with `data:image` is split at its first comma. The part
   after the comma is percent-decoded form-style, then base64-decoded, and
   stored at the path plus `.svg`.
7. Any other `src` gets an empty file created, and then the copy from the
   missing reader panics.

The modules follow that path:

- `Names`: `strings.Split`, `extractImageName`, `filepath.Join` into the
  images directory, and the endpoint.
- `Markup`: the parsed tree and `FindImage`.
  - `Search`/`SearchChildren` follow the closure and its shared `src`
    variable exactly.
  - `Preorder`/`FirstHit` form an independent "first hit in document order"
    reference to compare the walk against.
- `Percent`: `url.QueryUnescape`, plus `url.QueryEscape` as its round-trip
  partner.
- `Base64`: `base64.StdEncoding.DecodeString`, following section 4 of
  RFC 4648 with Go's leniencies:
  - padding is required;
  - unused low bits are ignored;
  - CR and LF are skipped anywhere.

  `Encode` is the round-trip partner.
- `Reference`: the `http` / `data:image` dispatch and `downloadImagebase64`.
- `FileStore`: the images directory as a map of files plus a set of
  directories. It covers `os.Stat`, `os.MkdirAll`, `os.Create` and `io.Copy`.
- `Handler`: `downloadImage` and the request path of
  `DownloadImageFromTelegram` as pure functions.
  - The network and the HTML parser are oracles, given as a `Net` value:
    the page's status and parsed tree, and the image's status, body, and
    whether the stream ended cleanly.
  - The result records the store afterwards, the outcome, and the URLs
    fetched in order.
- `HandlerProperties`: properties that relate several calls or fix the
  network's answers.
- `Scenarios`: end-to-end requests worked through the model:
  - a remote photo;
  - an inline photo, with a percent-escaped payload and with the raw
    payload `PHN2Zz48L3N2Zz4=` (`<svg></svg>`);
  - a cache hit.

Go strings are Dafny strings in which every character stands for one byte.
Stored image contents are `seq<byte>`.

Behaviours of the code that the model keeps, surprising as some of them are:

- Only status exactly 200 is accepted for the page. Any other status,
  including other 2xx codes, is an error.
- The image fetch's status is never checked. A 404 body is stored as the
  image.
- Inline images are written to `<path>.svg`. However, the cache check and the
  returned endpoint both use the unsuffixed name. So an inline image is never
  served from the cache, and it is downloaded again on every request.
- A reference that is neither `http…` nor `data:image…` does not get its own
  error. An empty file is created, and then `io.Copy` reads from a nil reader
  and panics. This is modelled as the `Panicked` outcome, which the server's
  recovery turns into a failed request (`Crashed`). The empty file stays
  behind, so the next request for that link is answered from the "cache".
- Walk details:
  - A photo `img` whose first `src` is empty ends its own visit: its children
    are skipped, but its later siblings are still searched.
  - A photo `img` with no `src` at all has its children searched.
  - So "first hit in pre-order" holds on trees whose photo images have no
    children. This is always the case for parser output, because `img` is a
    void element. `Markup.EmptySrcHidesNestedHit` shows a tree where it fails.
- Names `""`, `.` and `..` make `filepath.Join` give the images directory or
  the working directory. `os.Stat` succeeds on directories. So a request
  named `..` always answers "already exists" without downloading anything,
  and one named `""` or `.` does so once the images directory exists. The
  first such request, made before that directory exists, downloads. An
  inline image for it is then written to `images.svg` in the working
  directory.

## Model

| member | source | states |
|---|---|---|
| Names.Split | internal/handlers/handlers.go:78 | `strings.Split(s, "/")` yields exactly one more piece than there are separators, and no piece contains a separator |
| Names.JoinSplit | internal/handlers/handlers.go:78 | joining the pieces of `Split` with `/` gives the input back, so splitting loses nothing |
| Names.LastPieceIsSuffix | internal/handlers/handlers.go:78-79 | the last piece is a suffix of the link, preceded by `/` unless it is the whole link |
| Names.ExtractImageName | internal/handlers/handlers.go:77-80 | the name is a separator-free suffix of the link, either the whole link or the text after its last `/` |
| Names.ExtractImageNameUnique | internal/handlers/handlers.go:77-80 | any separator-free suffix that follows a `/` (or is the whole link) is the extracted name, so the name is fully determined |
| Names.ExtractImageNameEdges | internal/handlers/handlers.go:77-80 | a link without `/` is its own name, and a link ending in `/` has the empty name |
| Names.ImagePath | internal/handlers/handlers.go:58 | `filepath.Join("./images", name)` is `images` followed by `/` and then the name's characters for ordinary names; it is `images` for `""` and `.`, and `.` for `..` |
| Names.ImagePathNamesFile | internal/handlers/handlers.go:57-58 | for an ordinary name, the last segment of its image path is the name again, so the file on disk is named after the cache key |
| Names.ImagePathInjective | internal/handlers/handlers.go:57-58 | distinct ordinary names map to distinct image paths |
| Names.EndpointNamesImage | internal/handlers/handlers.go:62 | the last segment of the endpoint is the image name, so a client following it asks for the same key |
| Markup.FirstSrc | internal/handlers/handlers.go:97-102 | absent exactly when no attribute is `src`; otherwise the value of the earliest `src` attribute |
| Markup.ClassMatchedWhole | internal/handlers/handlers.go:94-96 | the class is compared as one whole string: an `img` whose only class attribute adds anything to the marker is not the photo, whatever other attributes it has, and the walk goes on into its children |
| Markup.Search | internal/handlers/handlers.go:93-109 | a photo image with a `src` yields its first `src`; a node that is not a photo image and yields something got it from the first child whose visit yields something |
| Markup.SrclessPhotoSearchesChildren | internal/handlers/handlers.go:94-108 | a photo image with no `src` attribute does not end the visit: its children are searched, and any result comes from the first child that yields something |
| Markup.SearchChildren | internal/handlers/handlers.go:106-108 | the sibling loop yields nothing exactly when every child yields nothing; otherwise it yields the result of the first child that yields something |
| Markup.FindImage | internal/handlers/handlers.go:89-117 | success carries a non-empty value that is the first `src` of some photo image in the document |
| Markup.SearchIsFirstHit | internal/handlers/handlers.go:93-109 | on a tree whose photo images are leaves, the walk yields the `src` of the first photo image in pre-order with a non-empty first `src` |
| Markup.SearchChildrenIsFirstHit | internal/handlers/handlers.go:106-108 | the sibling loop yields the first hit of the children's concatenated pre-orders |
| Markup.FindImageIsFirstHit | internal/handlers/handlers.go:89-117 | on parser-shaped trees, `FindImage` succeeds iff the document contains a hit, and then returns the first hit's `src` |
| Markup.SearchFindsPhotoImage | internal/handlers/handlers.go:93-109 | any non-empty walk result is the first `src` of a photo image somewhere in the subtree |
| Markup.SettledChildrenUnvisited | internal/handlers/handlers.go:97-101 | once a photo image with a `src` is reached, its children are never looked at: replacing them changes nothing |
| Markup.LaterSiblingsUnvisited | internal/handlers/handlers.go:106-108 | after a sibling yields a non-empty `src`, appending further siblings changes nothing |
| Markup.EmptySiblingsSkipped | internal/handlers/handlers.go:106-108 | siblings that yield nothing are passed over: the result is that of the siblings after them |
| Markup.EmptySrcHidesNestedHit | internal/handlers/handlers.go:96-115 | a photo image with an empty `src` hides a hit nested inside it, so `FindImage` fails where the first pre-order hit exists |
| Markup.ScannerExamples | internal/handlers/handlers.go:89-117 | a page with the preview photo yields its `src`; a page whose only image has another class yields "not found" |
| Percent.Unhex | internal/handlers/handlers.go:135 | a hex digit's value is below 16, and the digit is the character for that value in lower or upper case, so `%2b` and `%2B` decode alike |
| Percent.QueryUnescape | internal/handlers/handlers.go:135-138 | fails exactly when some `%` is not followed by two hex digits; text without `%` decodes character by character (`+` to a space), and decoding never lengthens |
| Percent.UnescapeEscape | internal/handlers/handlers.go:135-138 | unescaping inverts `url.QueryEscape` on every byte string |
| Percent.UnescapePlain | internal/handlers/handlers.go:135 | text with neither `%` nor `+` is unchanged by unescaping |
| Percent.UnescapeKeepsLiteral | internal/handlers/handlers.go:135 | a character that cannot belong to an escape survives a successful unescape, `+` as a space |
| Base64.Sextet | internal/handlers/handlers.go:140 | a character's six-bit value is below 64 and maps back to that character |
| Base64.StripNewlines | internal/handlers/handlers.go:140 | a single character is dropped iff it is CR or LF, and otherwise kept |
| Base64.StripNewlinesAppend | internal/handlers/handlers.go:140 | stripping works piece by piece over a concatenation, so every other character is kept, in order and as often as it occurs |
| Base64.DecodeGroups | internal/handlers/handlers.go:140 | a successful decode had a length that is a multiple of four and only alphabet and padding characters |
| Base64.Decode | internal/handlers/handlers.go:140-143 | a successful decode had only alphabet, padding, CR and LF characters |
| Base64.DecodeFullGroup | internal/handlers/handlers.go:140 | a full four-character group in front of more input decodes to its three bytes ahead of the rest |
| Base64.DecodeOneBytePad | internal/handlers/handlers.go:140 | a final group padded with `==` decodes to its single byte |
| Base64.DecodeTwoBytePad | internal/handlers/handlers.go:140 | a final group padded with `=` decodes to its two bytes |
| Base64.DecodeGroupsEncode | internal/handlers/handlers.go:140 | group decoding inverts padded encoding on every byte sequence |
| Base64.DecodeEncode | internal/handlers/handlers.go:140-143 | decoding the standard padded encoding of any bytes gives those bytes back |
| Base64.BadLengthRejected | internal/handlers/handlers.go:140-143 | text whose length without CR and LF is not a multiple of four fails to decode |
| Base64.PadOnlyAtEnd | internal/handlers/handlers.go:140 | a `=` anywhere before the last two characters makes group decoding fail |
| Base64.ForeignCharRejected | internal/handlers/handlers.go:140-143 | any character outside the alphabet, padding, CR and LF makes decoding fail |
| Reference.Classify | internal/handlers/handlers.go:178-195 | remote iff the reference starts with `http`, inline iff it starts with `data:image`, unsupported iff neither |
| Reference.PrefixesExclusive | internal/handlers/handlers.go:178-186 | no reference has both prefixes, so the order of the two tests does not matter |
| Reference.ClassifyExamples | internal/handlers/handlers.go:178-195 | `https…` and `httpfoo` are remote, `data:image/png…` is inline, `ftp:` and `data:text/plain` are unsupported |
| Reference.FirstComma | internal/handlers/handlers.go:129 | absent iff the text has no comma; otherwise a comma position with no comma before it |
| Reference.DecodeInline | internal/handlers/handlers.go:128-146 | the "invalid format" error is returned exactly when the reference has no comma |
| Reference.BadEscapeRejected | internal/handlers/handlers.go:135-138 | a payload that percent-decoding rejects gives the unescape error, whatever the header |
| Reference.BadBase64Rejected | internal/handlers/handlers.go:140-143 | a payload that percent-decodes but is not valid base64 gives the base64 error |
| Reference.SplitAtFirstComma | internal/handlers/handlers.go:129-135 | the split is at the first comma: the header is ignored and the payload is everything after it |
| Reference.PayloadForeignCharRejected | internal/handlers/handlers.go:135-143 | a payload character that survives unescaping as non-base64 makes decoding fail |
| Reference.PayloadLiteralRejected | internal/handlers/handlers.go:129-143 | a literal comma, space or unescaped `+` in the payload makes decoding fail |
| Reference.RawPayloadDecodes | internal/handlers/handlers.go:128-146 | a raw base64 payload without `+`, put straight after a comma-free header, decodes back to its bytes, since unescaping leaves it unchanged |
| Reference.InlineRoundTrip | internal/handlers/handlers.go:128-146 | any bytes, base64-encoded, then percent-escaped (`+` as `%2B`), after a comma-free header, decode back to themselves |
| Reference.MissingCommaExample | internal/handlers/handlers.go:129-132 | `data:image/png;base64` with no comma fails with the missing-comma error |
| Reference.NotBase64Example | internal/handlers/handlers.go:140-143 | `data:image/png;base64,not_base64!!` fails to decode |
| Reference.BadEscapeExample | internal/handlers/handlers.go:135-138 | the payload `%zz` fails with the unescape error |
| Reference.BadLengthExample | internal/handlers/handlers.go:140-143 | the payload `QQ`, lacking its padding, fails with the base64 error |
| FileStore.ExistsPersists | internal/handlers/handlers.go:83-86 | what `os.Stat` finds before a successful mkdir, create or write it still finds after; a created file exists even while empty |
| FileStore.MkdirAll | internal/handlers/handlers.go:162-164 | succeeds iff no file is in the way; then the directory exists, files are untouched and existing directories remain |
| FileStore.Create | internal/handlers/handlers.go:197-200 | succeeds iff the path is not a directory; then the file exists and is empty, and every other path is unchanged |
| FileStore.Write | internal/handlers/handlers.go:203 | the created file holds exactly the copied bytes, and every other path is unchanged |
| Handler.SvgPath | internal/handlers/handlers.go:193 | the inline file's path extends the plain path and is never equal to it |
| Handler.Save | internal/handlers/handlers.go:197-205 | the write succeeds iff the path is not a directory, a reader exists and the stream completes, and then stores the data, touching only that path; a directory makes the create fail with the store unchanged; with no reader and a creatable path it panics, leaving an empty file |
| Handler.Retrieve | internal/handlers/handlers.go:176-205 | the image is fetched only for a remote reference; an inline reference never touches the plain path and a remote one never touches the `.svg` path; an unsupported reference never succeeds; a failed image connection or inline decode leaves the store as it was |
| Handler.DownloadImage | internal/handlers/handlers.go:149-209 | fetches the link first and at most one more URL; writes only the plain or `.svg` path; creates at most the images directory; any status but 200 fails with nothing changed |
| Handler.HandleRequest | internal/handlers/handlers.go:57-73 | an existing path answers `Cached` with no fetch and no change; otherwise the link is fetched first; every endpoint is `/static/` plus the unsuffixed name |
| HandlerProperties.EarlyFailureWritesNothing | internal/handlers/handlers.go:152-174 | failures before a reference is found (connection, status, parse, no photo) fetch nothing more and write no file |
| HandlerProperties.DirectoryCreatedBeforeParsing | internal/handlers/handlers.go:162-174 | a 200 page that fails to parse or has no photo still leaves the images directory behind |
| HandlerProperties.ImageStatusIgnored | internal/handlers/handlers.go:179-185 | the image fetch's status has no effect on the run |
| HandlerProperties.RemoteReferenceStored | internal/handlers/handlers.go:178-205 | a remote reference is fetched second, and its body is stored at the plain path with every other path unchanged |
| HandlerProperties.InlineReferenceStored | internal/handlers/handlers.go:186-205 | an inline reference fetches nothing more, and its decoded bytes go to the `.svg` path with every other path unchanged |
| HandlerProperties.ImageFailureWritesNothing | internal/handlers/handlers.go:179-190 | an unreachable remote image or an undecodable inline one fails with that error before any file is created, so the files are as they were |
| HandlerProperties.UnsupportedReferenceFails | internal/handlers/handlers.go:176-205 | any other reference panics exactly when the plain path is neither a directory nor the images directory, leaving one new empty file; otherwise the create fails and no file changes |
| HandlerProperties.UnsupportedThenCached | internal/handlers/handlers.go:57-73 | a first request with such a reference crashes, and the same request afterwards is answered as cached from the empty file, with no fetch and no change |
| HandlerProperties.RemoteDownloadThenCached | internal/handlers/handlers.go:57-73 | after a successful remote download, the same request is answered from the cache with no fetch, no change and the same endpoint |
| HandlerProperties.InlineNeverCached | internal/handlers/handlers.go:193 | after an inline download the plain path still does not exist, so a repeat request for an ordinary name fetches the link again |
| HandlerProperties.DirectoryNamesAnswerAtOnce | internal/handlers/handlers.go:83-86 | `os.Stat` succeeds on directories, so a link ending in `/` (once the images directory exists) or in `/..` is answered as cached with no fetch |
| HandlerProperties.RemoteRequestStored | internal/handlers/handlers.go:57-73 | a first request with a remote photo fetches the link and then the photo, answers with the endpoint, and adds exactly one file, the body at the plain path |
| HandlerProperties.InlineRequestStored | internal/handlers/handlers.go:57-73 | a first request with an inline photo fetches only the link, answers with the unsuffixed endpoint, and adds exactly one file, the decoded bytes at the `.svg` path |
| Scenarios.LinkName | internal/handlers/handlers.go:77-80 | the name of `https://t.me/channel/123` is `123` |
| Scenarios.PreviewPageFound | internal/handlers/handlers.go:89-117 | a document → body → preview-photo page yields the photo's `src` |
| Scenarios.RemoteScenario | internal/handlers/handlers.go:57-73 | a link named `123` whose page yields a remote photo, on an empty store, answers `/static/123`, fetches link then photo, and leaves only `images/123` holding the body |
| Scenarios.InlineUriClassified | internal/handlers/handlers.go:186 | a reference built on a `data:image` header is classified inline |
| Scenarios.InlineUriDecodes | internal/handlers/handlers.go:128-146 | an escaped, encoded payload behind a comma-free `data:image` header is classified inline and decodes back to its bytes |
| Scenarios.InlineScenario | internal/handlers/handlers.go:186-193 | a link named `123` whose page yields a percent-escaped inline photo, on an empty store, answers `/static/123`, fetches only the link, and leaves only `images/123.svg` holding the decoded bytes |
| Scenarios.SvgEncoding | internal/handlers/handlers.go:140 | `PHN2Zz48L3N2Zz4=` is the standard base64 encoding of `<svg></svg>` |
| Scenarios.RawReferenceDecodes | internal/handlers/handlers.go:128-146 | a `data:image` reference with the raw payload `PHN2Zz48L3N2Zz4=` is classified inline and decodes to `<svg></svg>` |
| Scenarios.RawInlineScenario | internal/handlers/handlers.go:57-73 | a link named `123` whose page yields `data:image/svg+xml;base64,PHN2Zz48L3N2Zz4=`, on an empty store, answers `/static/123`, fetches only the link, and leaves only `images/123.svg` holding `<svg></svg>` |
| Scenarios.CachedScenario | internal/handlers/handlers.go:60-63 | with `images/123` present, the request answers `/static/123` at once, with no fetch and no change |

## Left out

- `HandleUpdates` (lines 25-41) is left out. It is the Telegram bot's
  message loop, which is I/O only and separate from the image path.
- JSON binding and the JSON bodies of the answers (lines 45-55, 62, 68, 73)
  are left out: they are web-framework plumbing. The model's `Reply` keeps
  which branch answered and the endpoint.
- Logging is left out. It has no effect on the result.
- `http.Get` and `html.Parse` are not modelled. The network and the parser
  are oracle inputs (`Net`). Redirects, timeouts and partial reads are
  reduced to "unreachable" or "stream ended early".
- `parseResponse` (lines 119-126) is represented only by its result: a tree,
  or a parse failure.
- Filesystem failures other than path-kind conflicts are left out:
  permissions, a full disk, and a missing parent directory. The images
  directory is created before any write. Ordinary names write directly
  inside it; names `""` and `.` write `images.svg` in the working directory
  (or fail on `images` itself), and `..` never writes.
- Concurrent requests are left out. Two requests racing on the same path are
  not modelled; each call is sequential over one store.
- The deferred `Close` calls are left out. They have no effect on the
  stored state.
- `Percent.QueryEscape` and `Base64.Encode` have no counterpart in the
  handler. They are defined only as partners for the decoders' round-trip
  lemmas.
- The uploader, server, routes, bot, config and `main` files are not part of
  this model.
- Percent.QueryUnescape: the error value keeps only the offending escape,
  not Go's error message text.

=== FILE: base64.dfy ===
/** Base64 with the standard alphabet and `=` padding (section 4 of
    RFC 4648), as Go's `base64.StdEncoding.DecodeString` decodes it:
    padding is required, the unused low bits of a padded final group are
    ignored rather than rejected, and carriage returns and line feeds are
    skipped wherever they occur. */
module Base64 {
  import opened Wrappers

  const Pad: char := '='

  datatype Base64Error = CorruptInput

  /** The alphabet character for a six-bit value: `A`-`Z`, `a`-`z`, `0`-`9`,
      `+`, `/`. */
  function SextetChar(v: nat): (c: char)
    requires v < 64
  {
    if v < 26 then ('A' as nat + v) as char
    else if v < 52 then ('a' as nat + v - 26) as char
    else if v < 62 then ('0' as nat + v - 52) as char
    else if v == 62 then '+'
    else '/'
  }

  /** The six-bit value of an alphabet character, the inverse of
      `SextetChar`. */
  function Sextet(c: char): (r: Option<nat>)
    ensures r.Some? ==> r.value < 64 && SextetChar(r.value) == c
  {
    if 'A' <= c <= 'Z' then Some(c as nat - 'A' as nat)
    else if 'a' <= c <= 'z' then Some(c as nat - 'a' as nat + 26)
    else if '0' <= c <= '9' then Some(c as nat - '0' as nat + 52)
    else if c == '+' then Some(62)
    else if c == '/' then Some(63)
    else None
  }

  predicate InAlphabet(c: char)
  {
    Sextet(c).Some?
  }

  /** Text made only of alphabet characters and padding. */
  predicate IsBase64Text(s: string)
  {
    forall i :: 0 <= i < |s| ==> InAlphabet(s[i]) || s[i] == Pad
  }

  predicate IsNewline(c: char)
  {
    c == '\r' || c == '\n'
  }

  /** The input with every carriage return and line feed removed: a single
      character is kept unless it is one, and `StripNewlinesAppend` shows
      the rest is done piece by piece, in order. */
  function StripNewlines(s: string): (r: string)
    ensures |r| <= |s|
    ensures forall c :: c in r <==> c in s && c != '\r' && c != '\n'
    ensures |s| == 1 ==> r == if IsNewline(s[0]) then "" else s
  {
    if |s| == 0 then ""
    else if s[0] == '\r' || s[0] == '\n' then StripNewlines(s[1..])
    else [s[0]] + StripNewlines(s[1..])
  }

  /** Stripping distributes over concatenation, so it keeps every other
      character, in order and as often as it occurs. */
  lemma {:induction false} StripNewlinesAppend(a: string, b: string)
    ensures StripNewlines(a + b) == StripNewlines(a) + StripNewlines(b)
    decreases |a|
  {
    if |a| == 0 {
      assert a + b == b;
    } else {
      assert (a + b)[0] == a[0];
      assert (a + b)[1..] == a[1..] + b;
      StripNewlinesAppend(a[1..], b);
    }
  }

  /** The three bytes a full group of four sextets carries. */
  function Bytes3(a: nat, b: nat, c: nat, d: nat): seq<byte>
    requires a < 64 && b < 64 && c < 64 && d < 64
  {
    [(a * 4 + b / 16) as byte, ((b % 16) * 16 + c / 4) as byte, ((c % 4) * 64 + d) as byte]
  }

  /** Decoding after newlines are gone: groups of four characters, only the
      last of which may end in `=` or `==`. */
  function DecodeGroups(s: string): (r: Result<seq<byte>, Base64Error>)
    ensures r.Success? ==> |s| % 4 == 0
    ensures r.Success? ==> IsBase64Text(s)
    decreases |s|
  {
    if |s| == 0 then Success([])
    else if |s| < 4 then Failure(CorruptInput)
    else
      var a, b, c, d := Sextet(s[0]), Sextet(s[1]), Sextet(s[2]), Sextet(s[3]);
      if a.None? || b.None? then Failure(CorruptInput)
      else if c.Some? && d.Some? then
        match DecodeGroups(s[4..])
        case Failure(e) => Failure(e)
        case Success(rest) =>
          assert forall i :: 4 <= i < |s| ==> s[i] == s[4..][i - 4];
          Success(Bytes3(a.value, b.value, c.value, d.value) + rest)
      else if |s| != 4 then Failure(CorruptInput)
      else if c.Some? && s[3] == Pad then
        Success(Bytes3(a.value, b.value, c.value, 0)[..2])
      else if s[2] == Pad && s[3] == Pad then
        Success(Bytes3(a.value, b.value, 0, 0)[..1])
      else Failure(CorruptInput)
  }

  /** `base64.StdEncoding.DecodeString`. */
  function Decode(s: string): (r: Result<seq<byte>, Base64Error>)
    ensures r.Success? ==> forall c :: c in s ==> InAlphabet(c) || c == Pad || c == '\r' || c == '\n'
  {
    var t := StripNewlines(s);
    var r := DecodeGroups(t);
    if r.Success? then
      assert forall c :: c in t ==> InAlphabet(c) || c == Pad;
      r
    else r
  }

  /** The four characters encoding three bytes. */
  function EncodeGroup(x: byte, y: byte, z: byte): (t: string)
    ensures |t| == 4 && forall i :: 0 <= i < 4 ==> InAlphabet(t[i])
  {
    [SextetChar(x as nat / 4), SextetChar((x as nat % 4) * 16 + y as nat / 16),
     SextetChar((y as nat % 16) * 4 + z as nat / 64), SextetChar(z as nat % 64)]
  }

  /** Standard padded encoding of a byte sequence. */
  function Encode(bs: seq<byte>): (t: string)
    ensures |t| % 4 == 0
    ensures IsBase64Text(t)
  {
    if |bs| == 0 then ""
    else if |bs| == 1 then
      var g := EncodeGroup(bs[0], 0, 0);
      BothBase64Text(g[..2], "==");
      g[..2] + "=="
    else if |bs| == 2 then
      var g := EncodeGroup(bs[0], bs[1], 0);
      BothBase64Text(g[..3], "=");
      g[..3] + "="
    else
      var g, rest := EncodeGroup(bs[0], bs[1], bs[2]), Encode(bs[3..]);
      BothBase64Text(g, rest);
      g + rest
  }

  lemma BothBase64Text(a: string, b: string)
    requires IsBase64Text(a) && IsBase64Text(b)
    ensures IsBase64Text(a + b)
  {
  }

  /** One unfolding of `Encode` over a leading full group. */
  lemma EncodeStep(x: byte, y: byte, z: byte, rest: seq<byte>)
    ensures Encode([x, y, z] + rest) == EncodeGroup(x, y, z) + Encode(rest)
  {
    var bs := [x, y, z] + rest;
    assert bs[3..] == rest;
  }

  lemma AlphabetSextet(v: nat)
    requires v < 64
    ensures Sextet(SextetChar(v)) == Some(v)
  {
  }

  /** The arithmetic of one group: regrouping 3 bytes into four sextets and
      back is the identity. */
  lemma GroupRoundTrip(x: byte, y: byte, z: byte)
    ensures var a, b, c, d := x as nat / 4, (x as nat % 4) * 16 + y as nat / 16,
                              (y as nat % 16) * 4 + z as nat / 64, z as nat % 64;
            a < 64 && b < 64 && c < 64 && d < 64 && Bytes3(a, b, c, d) == [x, y, z]
  {
    var a, b, c, d := x as nat / 4, (x as nat % 4) * 16 + y as nat / 16,
                      (y as nat % 16) * 4 + z as nat / 64, z as nat % 64;
    assert b / 16 == x as nat % 4 && b % 16 == y as nat / 16;
    assert c / 4 == y as nat % 16 && c % 4 == z as nat / 64;
  }

  lemma NoNewlinesStrip(s: string)
    requires '\r' !in s && '\n' !in s
    ensures StripNewlines(s) == s
  {
  }

  /** A full group in front of more input decodes to its three bytes. */
  lemma DecodeFullGroup(x: byte, y: byte, z: byte, rest: string)
    ensures DecodeGroups(EncodeGroup(x, y, z) + rest) ==
            match DecodeGroups(rest)
            case Failure(e) => Failure(e)
            case Success(t) => Success([x, y, z] + t)
  {
    var s := EncodeGroup(x, y, z) + rest;
    GroupRoundTrip(x, y, z);
    AlphabetSextet(x as nat / 4);
    AlphabetSextet((x as nat % 4) * 16 + y as nat / 16);
    AlphabetSextet((y as nat % 16) * 4 + z as nat / 64);
    AlphabetSextet(z as nat % 64);
    assert s[4..] == rest;
  }

  /** A final group padded with `==` decodes to its one byte. */
  lemma DecodeOneBytePad(x: byte)
    ensures DecodeGroups(EncodeGroup(x, 0, 0)[..2] + "==") == Success([x])
  {
    var g := EncodeGroup(x, 0, 0);
    var s := g[..2] + "==";
    GroupRoundTrip(x, 0, 0);
    AlphabetSextet(x as nat / 4);
    AlphabetSextet((x as nat % 4) * 16);
    assert s[0] == g[0] && s[1] == g[1] && s[2] == Pad && s[3] == Pad && |s| == 4;
    assert Sextet(s[2]).None? && Sextet(s[3]).None?;
    assert Bytes3(x as nat / 4, (x as nat % 4) * 16, 0, 0)[..1] == [x];
  }

  /** A final group padded with `=` decodes to its two bytes. */
  lemma DecodeTwoBytePad(x: byte, y: byte)
    ensures DecodeGroups(EncodeGroup(x, y, 0)[..3] + "=") == Success([x, y])
  {
    var g := EncodeGroup(x, y, 0);
    var s := g[..3] + "=";
    GroupRoundTrip(x, y, 0);
    AlphabetSextet(x as nat / 4);
    AlphabetSextet((x as nat % 4) * 16 + y as nat / 16);
    AlphabetSextet((y as nat % 16) * 4);
    assert s[0] == g[0] && s[1] == g[1] && s[2] == g[2] && s[3] == Pad && |s| == 4;
    assert Sextet(s[3]).None?;
    assert Bytes3(x as nat / 4, (x as nat % 4) * 16 + y as nat / 16, (y as nat % 16) * 4, 0)[..2] == [x, y];
  }

  lemma {:induction false} DecodeGroupsEncode(bs: seq<byte>)
    ensures DecodeGroups(Encode(bs)) == Success(bs)
    decreases |bs|
  {
    if |bs| == 0 {
    } else if |bs| == 1 {
      DecodeOneBytePad(bs[0]);
      assert bs == [bs[0]];
    } else if |bs| == 2 {
      DecodeTwoBytePad(bs[0], bs[1]);
      assert bs == [bs[0], bs[1]];
    } else {
      DecodeGroupsEncode(bs[3..]);
      DecodeGroupsEncodeStep(bs);
    }
  }

  lemma DecodeGroupsEncodeStep(bs: seq<byte>)
    requires |bs| >= 3 && DecodeGroups(Encode(bs[3..])) == Success(bs[3..])
    ensures DecodeGroups(Encode(bs)) == Success(bs)
  {
    var rest := Encode(bs[3..]);
    var g := EncodeGroup(bs[0], bs[1], bs[2]);
    assert Encode(bs) == g + rest;
    DecodeFullGroup(bs[0], bs[1], bs[2], rest);
    assert DecodeGroups(g + rest) == Success([bs[0], bs[1], bs[2]] + bs[3..]);
    FirstThree(bs);
  }

  lemma FirstThree(bs: seq<byte>)
    requires |bs| >= 3
    ensures [bs[0], bs[1], bs[2]] + bs[3..] == bs
  {
  }

  /** After newlines are dropped, a length that is not a multiple of four
      makes decoding fail (`QQ`, `QQQ`). */
  lemma BadLengthRejected(s: string)
    requires |StripNewlines(s)| % 4 != 0
    ensures Decode(s).Failure?
  {
  }

  /** Padding may only stand in the last two places: an `=` anywhere
      earlier makes group decoding fail (`Q=Q=`, `QQ==QQQQ`). */
  lemma {:induction false} PadOnlyAtEnd(s: string, i: nat)
    requires i + 2 < |s| && s[i] == Pad
    ensures DecodeGroups(s).Failure?
    decreases |s|
  {
    if |s| >= 4 && i >= 4 {
      assert s[4..][i - 4] == Pad;
      PadOnlyAtEnd(s[4..], i - 4);
    }
  }

  /** Round trip: decoding the padded encoding of any bytes gives them back. */
  lemma {:induction false} DecodeEncode(bs: seq<byte>)
    ensures Decode(Encode(bs)) == Success(bs)
  {
    var t := Encode(bs);
    assert '\r' !in t && '\n' !in t;
    NoNewlinesStrip(t);
    DecodeGroupsEncode(bs);
  }

  /** Any character outside the alphabet, other than padding and skipped
      newlines (a space, a comma, `_`, `!`), makes decoding fail. */
  lemma ForeignCharRejected(s: string, i: nat)
    requires i < |s| && !InAlphabet(s[i]) && s[i] != Pad && s[i] != '\r' && s[i] != '\n'
    ensures Decode(s).Failure?
  {
    assert s[i] in s;
  }
}

=== FILE: handler.dfy ===
/** The request path of `DownloadImageFromTelegram` and `downloadImage`:
    derive the cache key, short-circuit on an existing file, otherwise fetch
    the preview page, find the photo reference and store the image.

    The network and the HTML parser are oracles: `Net` says what the page
    fetch returns (its status and the parsed tree, or a parse failure) and
    what the image fetch returns. The handler's answer is the outcome only;
    the JSON around it is not modelled. */
module Handler {
  import opened Wrappers
  import opened Names
  import Markup
  import Reference
  import FileStore

  const StatusOK: int := 200

  /** The result of GETting the preview page: unreachable, or a status and
      what `html.Parse` makes of the body (`None` when parsing fails). */
  datatype PageFetch = PageUnreachable | PageResponse(status: int, doc: Option<Markup.Node>)

  /** The result of GETting a remote image: unreachable, or a status and
      the body bytes delivered, with whether the stream ended cleanly. */
  datatype ImageFetch = ImageUnreachable | ImageResponse(status: int, body: seq<byte>, complete: bool)

  /** What the network would answer to the two GETs of one request. */
  datatype Net = Net(page: PageFetch, image: ImageFetch)

  datatype DownloadError =
    | PageConnectFailed
    | PageStatus(status: int)
    | DirFailed
    | ParseFailed
    | NoPhoto
    | ImageConnectFailed
    | InlineDecodeFailed(cause: Reference.InlineError)
    | CreateFailed
    | CopyFailed

  /** How `downloadImage` ends: with no error, with one, or in a panic
      (reading from the nil reader left by an unrecognised reference). */
  datatype Outcome = Done | Failed(error: DownloadError) | Panicked

  /** The store after the call, how it ended, and the URLs fetched in order. */
  datatype Run = Run(store: FileStore.Store, outcome: Outcome, fetched: seq<string>)

  /** The handler's answer: an endpoint for a cached or freshly downloaded
      image, a download error, or a panic recovered by the server. */
  datatype Reply = Cached(endpoint: string) | Downloaded(endpoint: string) | DownloadFailed(error: DownloadError) | Crashed

  datatype Response = Response(store: FileStore.Store, reply: Reply, fetched: seq<string>)

  /** The file an inline image is written to: a different path that
      extends the plain one. */
  function SvgPath(filePath: string): (p: string)
    ensures |p| == |filePath| + 4 && p[..|filePath|] == filePath
    ensures p != filePath
  {
    filePath + ".svg"
  }

  /** `os.Create` then `io.Copy`: `data` is `None` for the nil reader, which
      panics once the (empty) file exists. */
  function Save(st: FileStore.Store, path: string, data: Option<seq<byte>>, complete: bool, fetched: seq<string>): (run: Run)
    ensures run.fetched == fetched
    ensures forall p :: p != path ==> FileStore.Unchanged(st, run.store, p)
    ensures run.store.dirs == st.dirs
    ensures run.outcome == Done <==> !FileStore.IsDir(st, path) && data.Some? && complete
    ensures run.outcome == Done ==> path in run.store.files && run.store.files[path] == data.value
    ensures run.outcome == Failed(CreateFailed) <==> FileStore.IsDir(st, path)
    ensures run.outcome == Failed(CreateFailed) ==> run.store == st
    ensures run.outcome == Panicked <==> !FileStore.IsDir(st, path) && data.None?
    ensures run.outcome == Panicked ==> run.store.files == st.files[path := []]
    ensures FileStore.Valid(st) ==> FileStore.Valid(run.store)
  {
    match FileStore.Create(st, path)
    case Failure(_) => Run(st, Failed(CreateFailed), fetched)
    case Success(created) =>
      match data
      case None => Run(created, Panicked, fetched)
      case Some(bytes) =>
        var written := FileStore.Write(created, path, bytes);
        if complete then Run(written, Done, fetched) else Run(written, Failed(CopyFailed), fetched)
  }

  /** The prefix dispatch on the reference the scanner found: a remote image
      is fetched (its status is never looked at) and stored at `filePath`;
      an inline one is decoded and stored at `filePath + ".svg"`; anything
      else falls through to the copy with no reader. */
  function Retrieve(st: FileStore.Store, url: string, ref: string, filePath: string, image: ImageFetch): (run: Run)
    ensures run.fetched == if Reference.Classify(ref) == Reference.Remote then [url, ref] else [url]
    ensures forall p :: p != filePath && p != SvgPath(filePath) ==> FileStore.Unchanged(st, run.store, p)
    ensures Reference.Classify(ref) == Reference.Inline ==> FileStore.Unchanged(st, run.store, filePath)
    ensures Reference.Classify(ref) == Reference.Remote ==> FileStore.Unchanged(st, run.store, SvgPath(filePath))
    ensures run.store.dirs == st.dirs
    ensures run.outcome == Done ==> Reference.Classify(ref) != Reference.Unsupported
    ensures (run.outcome == Failed(ImageConnectFailed) || (run.outcome.Failed? && run.outcome.error.InlineDecodeFailed?))
              ==> run.store == st
    ensures FileStore.Valid(st) ==> FileStore.Valid(run.store)
  {
    assert filePath != SvgPath(filePath) by {
      assert |SvgPath(filePath)| == |filePath| + 4;
    }
    match Reference.Classify(ref)
    case Remote =>
      (match image
       case ImageUnreachable => Run(st, Failed(ImageConnectFailed), [url, ref])
       case ImageResponse(_, body, complete) => Save(st, filePath, Some(body), complete, [url, ref]))
    case Inline =>
      (match Reference.DecodeInline(ref)
       case Failure(e) => Run(st, Failed(InlineDecodeFailed(e)), [url])
       case Success(bytes) => Save(st, SvgPath(filePath), Some(bytes), true, [url]))
    case Unsupported => Save(st, filePath, None, true, [url])
  }

  /** `downloadImage`: fetch the page, insist on status 200, create the
      images directory, parse, scan, then retrieve. Every error before the
      retrieval leaves every file as it was. */
  function DownloadImage(st: FileStore.Store, url: string, filePath: string, net: Net): (run: Run)
    ensures 1 <= |run.fetched| <= 2 && run.fetched[0] == url
    ensures forall p :: p != filePath && p != SvgPath(filePath) ==> FileStore.Unchanged(st, run.store, p)
    ensures run.store.dirs <= st.dirs + {ImageDir}
    ensures net.page.PageResponse? && net.page.status != StatusOK ==>
              run == Run(st, Failed(PageStatus(net.page.status)), [url])
    ensures FileStore.Valid(st) ==> FileStore.Valid(run.store)
  {
    match net.page
    case PageUnreachable => Run(st, Failed(PageConnectFailed), [url])
    case PageResponse(status, doc) =>
      if status != StatusOK then Run(st, Failed(PageStatus(status)), [url])
      else
        match FileStore.MkdirAll(st, ImageDir)
        case Failure(_) => Run(st, Failed(DirFailed), [url])
        case Success(withDir) =>
          match doc
          case None => Run(withDir, Failed(ParseFailed), [url])
          case Some(tree) =>
            match Markup.FindImage(tree)
            case Failure(_) => Run(withDir, Failed(NoPhoto), [url])
            case Success(ref) => Retrieve(withDir, url, ref, filePath, net.image)
  }

  /** `DownloadImageFromTelegram` from the bound link on: the name is the
      link's last segment, the path is that name under the images
      directory; if anything exists there the endpoint comes back at once,
      otherwise the image is downloaded. Either way the endpoint is
      `"/static/" + name`, without the `.svg` an inline image is stored
      under. */
  function HandleRequest(st: FileStore.Store, link: string, net: Net): (resp: Response)
    ensures var name := ExtractImageName(link);
            FileStore.Exists(st, ImagePath(name)) ==> resp == Response(st, Cached(Endpoint(name)), [])
    ensures !FileStore.Exists(st, ImagePath(ExtractImageName(link))) ==>
              |resp.fetched| >= 1 && resp.fetched[0] == link && !resp.reply.Cached?
    ensures resp.reply.Cached? || resp.reply.Downloaded? ==>
              resp.reply.endpoint == Endpoint(ExtractImageName(link))
    ensures FileStore.Valid(st) ==> FileStore.Valid(resp.store)
  {
    var name := ExtractImageName(link);
    var path := ImagePath(name);
    if FileStore.Exists(st, path) then Response(st, Cached(Endpoint(name)), [])
    else
      var run := DownloadImage(st, link, path, net);
      var reply := match run.outcome
        case Done => Downloaded(Endpoint(name))
        case Failed(e) => DownloadFailed(e)
        case Panicked => Crashed;
      Response(run.store, reply, run.fetched)
  }
}

=== FILE: markup.dfy ===
/** The markup scanner: `FindImage`, a walk over the parsed preview page
    looking for the canonical preview photo. */
module Markup {
  import opened Wrappers

  /** The node kinds of the HTML parser's tree. */
  datatype NodeType = ErrorNode | TextNode | DocumentNode | ElementNode | CommentNode | DoctypeNode | RawNode

  datatype Attribute = Attribute(key: string, val: string)

  /** A parsed document node: its kind, its tag name (or text), its
      attributes in source order and its children in document order. */
  datatype Node = Node(nodeType: NodeType, data: string, attrs: seq<Attribute>, children: seq<Node>)

  /** The class marker Telegram puts on the preview photo. */
  const PhotoClass: string := "tgme_page_photo_image"

  datatype ScanError = ImageNotFound

  /** An `img` element carrying a `class` attribute exactly equal to the
      preview-photo marker. */
  predicate IsPhotoImage(n: Node)
  {
    && n.nodeType == ElementNode
    && n.data == "img"
    && exists i :: 0 <= i < |n.attrs| && n.attrs[i].key == "class" && n.attrs[i].val == PhotoClass
  }

  /** The class is compared as one whole string, not as a list of class
      names: an `img` whose only class attribute adds anything to the
      marker is not the photo, whatever other attributes (a `src`, say) it
      carries, and the walk goes on into its children. */
  lemma ClassMatchedWhole(n: Node, k: int, extra: string)
    requires n.nodeType == ElementNode && n.data == "img" && extra != ""
    requires 0 <= k < |n.attrs| && n.attrs[k] == Attribute("class", PhotoClass + extra)
    requires forall i :: 0 <= i < |n.attrs| && i != k ==> n.attrs[i].key != "class"
    ensures !IsPhotoImage(n)
    ensures Search(n) == SearchChildren(n.children)
  {
    assert |n.attrs[k].val| > |PhotoClass|;
  }

  /** The value of the first `src` attribute, if there is one. */
  function FirstSrc(attrs: seq<Attribute>): (r: Option<string>)
    ensures r.None? <==> forall i :: 0 <= i < |attrs| ==> attrs[i].key != "src"
    ensures r.Some? ==> exists i :: && 0 <= i < |attrs| && attrs[i].key == "src" && attrs[i].val == r.value
                                    && forall j :: 0 <= j < i ==> attrs[j].key != "src"
  {
    if |attrs| == 0 then None
    else if attrs[0].key == "src" then Some(attrs[0].val)
    else
      var r := FirstSrc(attrs[1..]);
      if r.Some? then
        var i :| 0 <= i < |attrs[1..]| && attrs[1..][i].key == "src" && attrs[1..][i].val == r.value
                 && forall j :: 0 <= j < i ==> attrs[1..][j].key != "src";
        assert attrs[i + 1].key == "src";
        r
      else r
  }

  /** A node at which the walk sets the result and returns: a photo image
      with a `src` attribute, even an empty one. */
  predicate Settles(n: Node)
  {
    IsPhotoImage(n) && FirstSrc(n.attrs).Some?
  }

  /** The value of the walk's shared `src` variable after visiting `n`,
      having entered with it empty. A settling node ends the visit without
      looking at its children; otherwise the children are visited in order
      while the variable is still empty. */
  function Search(n: Node): (r: string)
    ensures Settles(n) ==> r == FirstSrc(n.attrs).value
    ensures !IsPhotoImage(n) && r != "" ==> FirstToYield(n.children, r)
    decreases n, 4
  {
    if Settles(n) then FirstSrc(n.attrs).value
    else SearchChildren(n.children)
  }

  /** Every visit among the first `k` siblings leaves the variable empty. */
  predicate NoneYieldBefore(cs: seq<Node>, k: int)
    requires k <= |cs|
    decreases cs, 0
  {
    forall j :: 0 <= j < k ==> Search(cs[j]) == ""
  }

  /** Some sibling yields `r` and every sibling before it yields nothing. */
  predicate FirstToYield(cs: seq<Node>, r: string)
    decreases cs, 1
  {
    exists i :: 0 <= i < |cs| && Search(cs[i]) == r && NoneYieldBefore(cs, i)
  }

  /** The sibling loop: it stops at the first child whose visit leaves the
      variable non-empty and yields that, or yields "" when none does. */
  function SearchChildren(cs: seq<Node>): (r: string)
    ensures r == "" <==> NoneYieldBefore(cs, |cs|)
    ensures r != "" ==> FirstToYield(cs, r)
    decreases cs, 3
  {
    if |cs| == 0 then ""
    else
      var r := Search(cs[0]);
      if r != "" then
        assert NoneYieldBefore(cs, 0);
        r
      else
        var rest := SearchChildren(cs[1..]);
        SkipEmptyFirst(cs, rest);
        rest
  }

  /** A first sibling that yields nothing can be dropped from both
      sibling-loop predicates. */
  lemma SkipEmptyFirst(cs: seq<Node>, r: string)
    requires |cs| > 0 && Search(cs[0]) == ""
    ensures NoneYieldBefore(cs, |cs|) <==> NoneYieldBefore(cs[1..], |cs| - 1)
    ensures FirstToYield(cs[1..], r) ==> FirstToYield(cs, r)
    decreases cs, 2
  {
    if NoneYieldBefore(cs[1..], |cs| - 1) {
      forall j | 0 <= j < |cs|
        ensures Search(cs[j]) == ""
      {
        if j > 0 {
          assert cs[j] == cs[1..][j - 1];
        }
      }
    }
    if FirstToYield(cs[1..], r) {
      var i :| 0 <= i < |cs[1..]| && Search(cs[1..][i]) == r && NoneYieldBefore(cs[1..], i);
      forall j | 0 <= j < i + 1
        ensures Search(cs[j]) == ""
      {
        if j > 0 {
          assert cs[j] == cs[1..][j - 1];
        }
      }
      assert Search(cs[i + 1]) == r && NoneYieldBefore(cs, i + 1);
    }
  }

  /** `FindImage`: the walk's result, where an empty result (nothing found,
      or an empty `src`) is the "image not found" error. */
  function FindImage(doc: Node): (r: Result<string, ScanError>)
    ensures r.Success? ==> r.value != ""
    ensures r.Success? ==> HasPhotoWithSrc(Preorder(doc), r.value)
  {
    var src := Search(doc);
    if src == "" then Failure(ImageNotFound)
    else
      SearchFindsPhotoImage(doc);
      Success(src)
  }

  // ---------------------------------------------------------------------
  // An independent reference: the document in pre-order.
  // ---------------------------------------------------------------------

  /** All nodes of the tree in document (pre-)order. */
  function Preorder(n: Node): (ns: seq<Node>)
    decreases n, 1
    ensures |ns| >= 1 && ns[0] == n
  {
    [n] + PreorderAll(n.children)
  }

  function PreorderAll(cs: seq<Node>): seq<Node>
    decreases cs, 0
  {
    if |cs| == 0 then [] else Preorder(cs[0]) + PreorderAll(cs[1..])
  }

  /** A node the scanner is meant to report: a photo image whose first
      `src` is not empty. */
  predicate IsHit(n: Node)
  {
    IsPhotoImage(n) && FirstSrc(n.attrs).Some? && FirstSrc(n.attrs).value != ""
  }

  /** The `src` of the first hit of a node list, or "" if there is none. */
  function FirstHit(ns: seq<Node>): (r: string)
    ensures r == "" <==> forall k :: 0 <= k < |ns| ==> !IsHit(ns[k])
  {
    if |ns| == 0 then ""
    else if IsHit(ns[0]) then FirstSrc(ns[0].attrs).value
    else FirstHit(ns[1..])
  }

  lemma {:induction false} FirstHitAppend(a: seq<Node>, b: seq<Node>)
    ensures FirstHit(a + b) == if FirstHit(a) != "" then FirstHit(a) else FirstHit(b)
  {
    if |a| == 0 {
      assert a + b == b;
    } else {
      assert (a + b)[1..] == a[1..] + b;
      FirstHitAppend(a[1..], b);
    }
  }

  /** The parser's guarantee that `img`, a void element, has no children;
      stated here only of photo images, which is all the scanner needs. */
  predicate PhotoImagesAreLeaves(n: Node)
    decreases n
  {
    && (IsPhotoImage(n) ==> |n.children| == 0)
    && forall i :: 0 <= i < |n.children| ==> PhotoImagesAreLeaves(n.children[i])
  }

  /** On a tree whose photo images have no children, the walk returns the
      `src` of the first hit in document order: pre-order, first match wins,
      and an empty `src` counts as no match. */
  lemma {:induction false} SearchIsFirstHit(n: Node)
    requires PhotoImagesAreLeaves(n)
    ensures Search(n) == FirstHit(Preorder(n))
    decreases n, 1
  {
    FirstHitAppend([n], PreorderAll(n.children));
    if Settles(n) {
      assert PreorderAll(n.children) == [];
    } else {
      SearchChildrenIsFirstHit(n.children);
    }
  }

  lemma {:induction false} SearchChildrenIsFirstHit(cs: seq<Node>)
    requires forall i :: 0 <= i < |cs| ==> PhotoImagesAreLeaves(cs[i])
    ensures SearchChildren(cs) == FirstHit(PreorderAll(cs))
    decreases cs, 0
  {
    if |cs| > 0 {
      SearchIsFirstHit(cs[0]);
      SearchChildrenIsFirstHit(cs[1..]);
      FirstHitAppend(Preorder(cs[0]), PreorderAll(cs[1..]));
    }
  }

  /** `FindImage` against the reference: on a parser-shaped tree it succeeds
      exactly when some node of the document is a hit, and then returns the
      `src` of the first one in document order. */
  lemma {:induction false} FindImageIsFirstHit(doc: Node)
    requires PhotoImagesAreLeaves(doc)
    ensures FindImage(doc).Success? <==> exists k :: 0 <= k < |Preorder(doc)| && IsHit(Preorder(doc)[k])
    ensures FindImage(doc).Success? ==> FindImage(doc).value == FirstHit(Preorder(doc))
  {
    SearchIsFirstHit(doc);
  }

  /** Some node of the list is a photo image whose first `src` is `v`. */
  predicate HasPhotoWithSrc(ns: seq<Node>, v: string)
  {
    exists k :: 0 <= k < |ns| && IsPhotoImage(ns[k]) && FirstSrc(ns[k].attrs) == Some(v)
  }

  lemma PhotoInConcat(a: seq<Node>, b: seq<Node>, v: string)
    requires HasPhotoWithSrc(a, v) || HasPhotoWithSrc(b, v)
    ensures HasPhotoWithSrc(a + b, v)
  {
    if HasPhotoWithSrc(a, v) {
      var k :| 0 <= k < |a| && IsPhotoImage(a[k]) && FirstSrc(a[k].attrs) == Some(v);
      assert (a + b)[k] == a[k];
    } else {
      var k :| 0 <= k < |b| && IsPhotoImage(b[k]) && FirstSrc(b[k].attrs) == Some(v);
      assert (a + b)[|a| + k] == b[k];
    }
  }

  /** Whatever the walk returns is the first `src` of some photo image of
      the document. */
  lemma {:induction false} SearchFindsPhotoImage(n: Node)
    requires Search(n) != ""
    ensures HasPhotoWithSrc(Preorder(n), Search(n))
    decreases n, 1
  {
    if Settles(n) {
      assert Preorder(n)[0] == n;
    } else {
      SearchChildrenFindsPhotoImage(n.children);
      PhotoInConcat([n], PreorderAll(n.children), Search(n));
    }
  }

  lemma {:induction false} SearchChildrenFindsPhotoImage(cs: seq<Node>)
    requires SearchChildren(cs) != ""
    ensures HasPhotoWithSrc(PreorderAll(cs), SearchChildren(cs))
    decreases cs, 0
  {
    if Search(cs[0]) != "" {
      SearchFindsPhotoImage(cs[0]);
    } else {
      SearchChildrenFindsPhotoImage(cs[1..]);
    }
    PhotoInConcat(Preorder(cs[0]), PreorderAll(cs[1..]), SearchChildren(cs));
  }

  /** A photo image without any `src` attribute does not settle: the walk
      searches its children, and whatever it finds there comes from the
      first child that yields something. */
  lemma SrclessPhotoSearchesChildren(n: Node)
    requires IsPhotoImage(n) && FirstSrc(n.attrs).None?
    ensures Search(n) == SearchChildren(n.children)
    ensures Search(n) != "" ==> FirstToYield(n.children, Search(n))
  {
  }

  // ---------------------------------------------------------------------
  // Early exit.
  // ---------------------------------------------------------------------

  /** Once a node settles, its children are never looked at: replacing
      them changes nothing. */
  lemma SettledChildrenUnvisited(n: Node, cs: seq<Node>)
    requires Settles(n)
    ensures Search(n.(children := cs)) == Search(n) == FirstSrc(n.attrs).value
  {
  }

  /** Once a sibling yields a non-empty `src`, later siblings are never
      visited: appending any nodes changes nothing. */
  lemma {:induction false} LaterSiblingsUnvisited(cs: seq<Node>, later: seq<Node>)
    requires SearchChildren(cs) != ""
    ensures SearchChildren(cs + later) == SearchChildren(cs)
    decreases cs
  {
    var all := cs + later;
    assert all[0] == cs[0];
    if Search(cs[0]) != "" {
      UnfoldSearchChildren(cs);
      UnfoldSearchChildren(all);
    } else {
      assert SearchChildren(all) == SearchChildren(cs[1..] + later) by {
        assert all[1..] == cs[1..] + later;
        UnfoldSearchChildren(all);
      }
      assert SearchChildren(cs) == SearchChildren(cs[1..]) by {
        UnfoldSearchChildren(cs);
      }
      LaterSiblingsUnvisited(cs[1..], later);
    }
  }

  /** One step of the sibling loop. */
  lemma UnfoldSearchChildren(cs: seq<Node>)
    requires |cs| > 0
    ensures SearchChildren(cs) == if Search(cs[0]) != "" then Search(cs[0]) else SearchChildren(cs[1..])
  {
  }

  /** Siblings that yield nothing are passed over. */
  lemma {:induction false} EmptySiblingsSkipped(cs: seq<Node>, later: seq<Node>)
    requires SearchChildren(cs) == ""
    ensures SearchChildren(cs + later) == SearchChildren(later)
    decreases cs
  {
    if |cs| == 0 {
      assert cs + later == later;
    } else {
      assert (cs + later)[0] == cs[0];
      assert (cs + later)[1..] == cs[1..] + later;
      EmptySiblingsSkipped(cs[1..], later);
    }
  }

  // ---------------------------------------------------------------------
  // Where the walk departs from "first hit in document order".
  // ---------------------------------------------------------------------

  /** A photo image with an empty `src` ends its own visit early, so a hit
      nested inside it is never seen. The HTML parser never builds such a
      tree (`img` has no children), which is why `FindImageIsFirstHit`
      assumes `PhotoImagesAreLeaves`. */
  lemma EmptySrcHidesNestedHit()
    ensures var inner := Node(ElementNode, "img", [Attribute("class", PhotoClass), Attribute("src", "x.jpg")], []);
            var outer := Node(ElementNode, "img", [Attribute("src", ""), Attribute("class", PhotoClass)], [inner]);
            && FindImage(outer) == Failure(ImageNotFound)
            && FirstHit(Preorder(outer)) == "x.jpg"
  {
    var inner := Node(ElementNode, "img", [Attribute("class", PhotoClass), Attribute("src", "x.jpg")], []);
    var outer := Node(ElementNode, "img", [Attribute("src", ""), Attribute("class", PhotoClass)], [inner]);
    assert outer.attrs[1].key == "class";
    assert inner.attrs[0].key == "class";
    assert PreorderAll([inner]) == Preorder(inner) + PreorderAll([]);
    assert Preorder(outer) == [outer, inner];
    assert !IsHit(outer) && IsHit(inner);
    assert FirstHit([outer, inner]) == FirstHit([inner]);
  }

  /** Examples: a page with the preview photo gives
      its `src`; a page with an ordinary image only gives "not found". */
  lemma ScannerExamples()
    ensures var photo := Node(ElementNode, "img", [Attribute("class", PhotoClass), Attribute("src", "https://cdn/x.jpg")], []);
            var body := Node(ElementNode, "body", [], [Node(TextNode, "hi", [], []), photo]);
            FindImage(Node(DocumentNode, "", [], [body])) == Success("https://cdn/x.jpg")
    ensures var plain := Node(ElementNode, "img", [Attribute("class", "avatar"), Attribute("src", "https://cdn/a.jpg")], []);
            FindImage(Node(DocumentNode, "", [], [plain])) == Failure(ImageNotFound)
  {
    var photo := Node(ElementNode, "img", [Attribute("class", PhotoClass), Attribute("src", "https://cdn/x.jpg")], []);
    assert photo.attrs[0].key == "class";
    var text := Node(TextNode, "hi", [], []);
    var body := Node(ElementNode, "body", [], [text, photo]);
    assert Search(text) == "";
    assert photo.attrs[1..] == [Attribute("src", "https://cdn/x.jpg")];
    assert FirstSrc(photo.attrs[1..]) == Some("https://cdn/x.jpg");
    assert "class" != "src";
    assert FirstSrc(photo.attrs) == Some("https://cdn/x.jpg");
    assert Search(photo) == "https://cdn/x.jpg";
    assert SearchChildren([photo]) == "https://cdn/x.jpg";
    assert [text, photo][1..] == [photo];
    assert SearchChildren([text, photo]) == "https://cdn/x.jpg";
    assert Search(body) == "https://cdn/x.jpg";
    assert SearchChildren([body]) == "https://cdn/x.jpg";
    var plain := Node(ElementNode, "img", [Attribute("class", "avatar"), Attribute("src", "https://cdn/a.jpg")], []);
    assert !IsPhotoImage(plain) by {
      assert plain.attrs[1].key != "class";
      assert plain.attrs[0].val != PhotoClass;
    }
  }
}

=== FILE: names.dfy ===
/** Deriving the cache key and the on-disk path from a Telegram link
    (`extractImageName` and the `filepath.Join` in `DownloadImageFromTelegram`). */
module Names {

  const Separator: char := '/'

  /** The images directory, `./images` as `filepath.Clean` leaves it. */
  const ImageDir: string := "images"

  /** The current working directory, which always exists. */
  const WorkingDir: string := "."

  /** A single path segment: text without a separator. */
  type Segment = s: string | Separator !in s

  /** Number of separators in `s`. */
  function SeparatorCount(s: string): nat
  {
    if |s| == 0 then 0
    else (if s[0] == Separator then 1 else 0) + SeparatorCount(s[1..])
  }

  /** Go's `strings.Join(parts, "/")`. */
  function Join(parts: seq<string>): string
    requires |parts| >= 1
  {
    if |parts| == 1 then parts[0] else parts[0] + [Separator] + Join(parts[1..])
  }

  /** Go's `strings.Split(s, "/")`: the pieces between separators, one more
      piece than there are separators, none of them containing one. */
  function Split(s: string): (parts: seq<string>)
    ensures |parts| == SeparatorCount(s) + 1
    ensures forall i :: 0 <= i < |parts| ==> Separator !in parts[i]
  {
    if |s| == 0 then [""]
    else
      var rest := Split(s[1..]);
      if s[0] == Separator then [""] + rest
      else [[s[0]] + rest[0]] + rest[1..]
  }

  /** Splitting and re-joining gives the input back: `Split` loses nothing. */
  lemma {:induction false} JoinSplit(s: string)
    ensures Join(Split(s)) == s
  {
    if |s| == 0 {
    } else {
      var rest := Split(s[1..]);
      JoinSplit(s[1..]);
      if s[0] == Separator {
        assert Split(s) == [""] + rest;
        assert Split(s)[1..] == rest;
      } else {
        var parts := Split(s);
        assert parts == [[s[0]] + rest[0]] + rest[1..];
        if |rest| == 1 {
          assert Join(parts) == [s[0]] + rest[0];
        } else {
          assert parts[1..] == rest[1..];
          assert Join(rest) == rest[0] + [Separator] + Join(rest[1..]);
          assert Join(parts) == [s[0]] + rest[0] + [Separator] + Join(rest[1..]);
        }
      }
    }
  }

  lemma {:induction false} NoSeparatorNoCount(s: string)
    requires Separator !in s
    ensures SeparatorCount(s) == 0
  {
    if |s| > 0 {
      assert s[0] != Separator;
      NoSeparatorNoCount(s[1..]);
    }
  }

  /** The last piece of `Split(s)` is the suffix of `s` after its last
      separator, or all of `s` when it has none. */
  lemma {:induction false} LastPieceIsSuffix(s: string)
    ensures var last := Split(s)[|Split(s)| - 1];
      && |last| <= |s|
      && s[|s| - |last|..] == last
      && (|last| == |s| || s[|s| - |last| - 1] == Separator)
  {
    if |s| == 0 {
    } else {
      var t := s[1..];
      LastPieceIsSuffix(t);
      var rest, parts := Split(t), Split(s);
      var last := rest[|rest| - 1];
      if s[0] == Separator || |rest| > 1 {
        assert parts[|parts| - 1] == last;
        assert s[|s| - |last|..] == t[|t| - |last|..];
        if |last| < |t| {
          assert s[|s| - |last| - 1] == t[|t| - |last| - 1];
        } else if s[0] != Separator {
          assert last == t;
          NoSeparatorNoCount(t);
          assert false;
        }
      } else {
        JoinSplit(t);
        assert parts == [[s[0]] + t];
        assert [s[0]] + t == s;
      }
    }
  }

  /** `extractImageName`: the last `/`-separated segment of the link. It is
      the longest suffix of the link without a separator: either the whole
      link, or the text right after the last separator (empty when the link
      ends in one). */
  function ExtractImageName(link: string): (name: Segment)
    ensures |name| <= |link| && link[|link| - |name|..] == name
    ensures |name| == |link| || link[|link| - |name| - 1] == Separator
  {
    LastPieceIsSuffix(link);
    var parts := Split(link);
    parts[|parts| - 1]
  }

  /** The image name is the only suffix with the two properties above, so
      it is fully determined by them. */
  lemma ExtractImageNameUnique(link: string, t: string)
    requires |t| <= |link| && link[|link| - |t|..] == t
    requires Separator !in t
    requires |t| == |link| || link[|link| - |t| - 1] == Separator
    ensures t == ExtractImageName(link)
  {
    var name := ExtractImageName(link);
    assert |t| == |name|;
  }

  /** A link without a separator is its own name; a link ending in a
      separator has the empty name. */
  lemma ExtractImageNameEdges(link: string)
    ensures Separator !in link ==> ExtractImageName(link) == link
    ensures |link| > 0 && link[|link| - 1] == Separator ==> ExtractImageName(link) == ""
  {
    if Separator !in link {
      ExtractImageNameUnique(link, link);
    }
    if |link| > 0 && link[|link| - 1] == Separator {
      ExtractImageNameUnique(link, "");
    }
  }

  /** `filepath.Join("./images", name)` for a name without a separator:
      an ordinary name gives a file directly inside the images directory;
      `filepath.Clean` folds an empty name and `.` into the images directory
      itself, and `..` climbs out of it. */
  function ImagePath(name: Segment): (path: string)
    ensures name !in {"", ".", ".."} ==>
              |path| == |ImageDir| + 1 + |name| && path[..|ImageDir| + 1] == ImageDir + [Separator]
    ensures name in {"", "."} ==> path == ImageDir
    ensures name == ".." ==> path == WorkingDir
  {
    if name == "" || name == "." then ImageDir
    else if name == ".." then WorkingDir
    else ImageDir + [Separator] + name
  }

  /** The last segment of an ordinary image path is the name again, so the
      cache key can be read back from the file's path. */
  lemma ImagePathNamesFile(name: Segment)
    requires name !in {"", ".", ".."}
    ensures ExtractImageName(ImagePath(name)) == name
  {
    var path := ImagePath(name);
    assert path[|path| - |name|..] == name;
    assert path[|path| - |name| - 1] == Separator;
    ExtractImageNameUnique(path, name);
  }

  /** Distinct ordinary names land on distinct paths, so the cache key is
      faithful to the name. */
  lemma ImagePathInjective(a: Segment, b: Segment)
    requires a !in {"", ".", ".."} && b !in {"", ".", ".."}
    requires ImagePath(a) == ImagePath(b)
    ensures a == b
  {
    assert ImagePath(a)[|ImageDir| + 1..] == a;
    assert ImagePath(b)[|ImageDir| + 1..] == b;
  }

  /** The public endpoint the handler answers with: `/static/` followed by
      the name. */
  function Endpoint(name: Segment): string
  {
    "/static/" + name
  }

  /** The last segment of the endpoint is the name again: a client can
      read the cache key back from the answer. */
  lemma EndpointNamesImage(name: Segment)
    ensures ExtractImageName(Endpoint(name)) == name
  {
    var e := Endpoint(name);
    assert e[|e| - |name|..] == name;
    assert e[|e| - |name| - 1] == Separator;
    ExtractImageNameUnique(e, name);
  }
}

=== FILE: percent.dfy ===
/** Form-style percent decoding, Go's `url.QueryUnescape`, and the encoder
    it inverts, Go's `url.QueryEscape`. */
module Percent {
  import opened Wrappers

  /** The offending escape: the `%` and at most two characters after it. */
  datatype EscapeError = EscapeError(escape: string)

  predicate IsHex(c: char)
  {
    ('0' <= c <= '9') || ('a' <= c <= 'f') || ('A' <= c <= 'F')
  }

  /** The value of a hex digit, in either case: `c` is the `v`-th digit
      of the lower-case or of the upper-case digit string. */
  function Unhex(c: char): (v: nat)
    requires IsHex(c)
    ensures v < 16
    ensures c == "0123456789abcdef"[v] || c == "0123456789ABCDEF"[v]
  {
    if '0' <= c <= '9' then c as nat - '0' as nat
    else if 'a' <= c <= 'f' then c as nat - 'a' as nat + 10
    else c as nat - 'A' as nat + 10
  }

  /** The upper-case hex digit Go writes for `v`. */
  function UpperHex(v: nat): (c: char)
    requires v < 16
    ensures IsHex(c) && Unhex(c) == v
  {
    "0123456789ABCDEF"[v]
  }

  /** What a character that is not part of an escape decodes to: the form
      convention turns `+` into a space. */
  function Literal(c: char): char
  {
    if c == '+' then ' ' else c
  }

  /** A `%` at `i` that is not followed by two hex digits. */
  predicate BadEscapeAt(s: string, i: int)
  {
    0 <= i < |s| && s[i] == '%' && (i + 2 >= |s| || !IsHex(s[i + 1]) || !IsHex(s[i + 2]))
  }

  /** Some `%` in `s` is not followed by two hex digits. */
  predicate HasBadEscape(s: string)
  {
    exists i :: 0 <= i < |s| && BadEscapeAt(s, i)
  }

  /** `url.QueryUnescape`: each `%XY` with two hex digits becomes the byte
      `0xXY`, each `+` a space, everything else stays. It fails exactly when
      some `%` is not followed by two hex digits, reporting the first. */
  function QueryUnescape(s: string): (r: Result<string, EscapeError>)
    ensures r.Failure? <==> HasBadEscape(s)
    ensures '%' !in s ==> r.Success? && |r.value| == |s|
                          && forall i :: 0 <= i < |s| ==> r.value[i] == Literal(s[i])
    ensures r.Success? ==> |r.value| <= |s|
    ensures |s| > 0 && s[|s| - 1] == '%' ==> r.Failure?
    decreases |s|
  {
    if |s| == 0 then Success("")
    else if s[0] == '%' then
      if |s| < 3 || !IsHex(s[1]) || !IsHex(s[2]) then
        assert BadEscapeAt(s, 0);
        Failure(EscapeError(if |s| < 3 then s else s[..3]))
      else
        BadEscapeShift(s, 3);
        match QueryUnescape(s[3..])
        case Failure(e) => Failure(e)
        case Success(t) => Success([(Unhex(s[1]) * 16 + Unhex(s[2])) as char] + t)
    else
      BadEscapeShift(s, 1);
      assert |s| > 0 && s[|s| - 1] == '%' ==> BadEscapeAt(s, |s| - 1);
      match QueryUnescape(s[1..])
      case Failure(e) => Failure(e)
      case Success(t) => Success([Literal(s[0])] + t)
  }

  /** Dropping a prefix without bad escapes, which ends on an escape
      boundary, keeps the answer to "is there a bad escape". */
  lemma BadEscapeShift(s: string, k: nat)
    requires 0 < k <= |s|
    requires k == 1 ==> s[0] != '%'
    requires k == 3 ==> s[0] == '%' && IsHex(s[1]) && IsHex(s[2])
    requires k == 1 || k == 3
    ensures HasBadEscape(s) <==> HasBadEscape(s[k..])
  {
    var t := s[k..];
    if HasBadEscape(s) {
      var i :| 0 <= i < |s| && BadEscapeAt(s, i);
      assert i >= k;
      ShiftedEscape(s, k, i);
    }
    if HasBadEscape(t) {
      var j :| 0 <= j < |t| && BadEscapeAt(t, j);
      ShiftedEscape(s, k, j + k);
    }
  }

  /** Whether the `%` at `i` is bad does not depend on what comes before. */
  lemma ShiftedEscape(s: string, k: nat, i: nat)
    requires k <= i < |s|
    ensures BadEscapeAt(s, i) <==> BadEscapeAt(s[k..], i - k)
  {
    var t := s[k..];
    assert t[i - k] == s[i];
    if i + 2 < |s| {
      assert t[i - k + 1] == s[i + 1] && t[i - k + 2] == s[i + 2];
    }
  }

  /** Characters `url.QueryEscape` leaves alone. */
  predicate IsUnreserved(c: char)
  {
    ('a' <= c <= 'z') || ('A' <= c <= 'Z') || ('0' <= c <= '9') || c in "-_.~"
  }

  /** How `url.QueryEscape` writes one byte. */
  function EscapeChar(c: char): (t: string)
    requires c as int < 256
    ensures t == [c] || t == "+" || (|t| == 3 && t[0] == '%')
  {
    if IsUnreserved(c) then [c]
    else if c == ' ' then "+"
    else ['%', UpperHex(c as nat / 16), UpperHex(c as nat % 16)]
  }

  /** `url.QueryEscape`: unreserved characters stay, a space becomes `+`,
      every other byte (including `+`, `/` and `=`) becomes `%XY`. */
  function QueryEscape(s: string): (r: string)
    requires IsByteString(s)
    ensures '+' in r <==> ' ' in s
    ensures forall i :: 0 <= i < |r| ==> IsUnreserved(r[i]) || r[i] == '+' || r[i] == '%'
    ensures |r| >= |s|
  {
    if |s| == 0 then "" else EscapeChar(s[0]) + QueryEscape(s[1..])
  }

  /** Decoding one escaped byte in front of the rest. */
  lemma UnescapeEscapeChar(c: char, rest: string)
    requires c as int < 256
    ensures QueryUnescape(EscapeChar(c) + rest) ==
            match QueryUnescape(rest)
            case Failure(e) => Failure(e)
            case Success(t) => Success([c] + t)
  {
    var t := EscapeChar(c) + rest;
    if IsUnreserved(c) {
      assert t[1..] == rest;
    } else if c == ' ' {
      assert t[1..] == rest;
    } else {
      assert t[3..] == rest;
      assert Unhex(t[1]) * 16 + Unhex(t[2]) == c as int;
    }
  }

  /** Round trip: unescaping an escaped byte string gives it back. */
  lemma {:induction false} UnescapeEscape(s: string)
    requires IsByteString(s)
    ensures QueryUnescape(QueryEscape(s)) == Success(s)
    decreases |s|
  {
    if |s| > 0 {
      UnescapeEscape(s[1..]);
      UnescapeEscapeChar(s[0], QueryEscape(s[1..]));
      HeadTail(s);
    }
  }

  lemma HeadTail(s: string)
    requires |s| > 0
    ensures [s[0]] + s[1..] == s
  {
  }

  /** Text with neither `%` nor `+` passes through unescaping unchanged. */
  lemma {:induction false} UnescapePlain(s: string)
    requires '%' !in s && '+' !in s
    ensures QueryUnescape(s) == Success(s)
    decreases |s|
  {
    if |s| > 0 {
      assert s[0] != '%' && s[0] != '+';
      UnescapePlain(s[1..]);
      HeadTail(s);
    }
  }

  /** A character that can never belong to an escape (not `%`, not a hex
      digit) survives unescaping, `+` as a space: unescaping never drops a
      literal and never splits at one. */
  lemma {:induction false} UnescapeKeepsLiteral(s: string, i: nat)
    requires i < |s| && s[i] != '%' && !IsHex(s[i])
    requires QueryUnescape(s).Success?
    ensures Literal(s[i]) in QueryUnescape(s).value
    decreases |s|
  {
    if s[0] == '%' {
      assert i >= 3;
      UnescapeKeepsLiteral(s[3..], i - 3);
    } else if i > 0 {
      UnescapeKeepsLiteral(s[1..], i - 1);
    }
  }
}

=== FILE: properties.dfy ===
/** Properties of the request path that relate several calls or fix the
    network's answers. */
module HandlerProperties {
  import opened Wrappers
  import opened Names
  import Markup
  import Reference
  import FileStore
  import opened Handler

  /** A page fetch that gets status 200 and a parsed tree. */
  predicate PageParsed(net: Net, tree: Markup.Node)
  {
    net.page == PageResponse(StatusOK, Some(tree))
  }

  /** Every failure before a reference is in hand (page unreachable, a
      status other than exactly 200, the images directory blocked, a parse
      failure, no photo) fetches nothing more and writes no file. */
  lemma EarlyFailureWritesNothing(st: FileStore.Store, url: string, filePath: string, net: Net)
    requires || net.page.PageUnreachable?
             || (net.page.PageResponse? && net.page.status != StatusOK)
             || (net.page.PageResponse? && ImageDir in st.files)
             || (net.page.PageResponse? && net.page.doc.None?)
             || (net.page.PageResponse? && net.page.doc.Some? && Markup.FindImage(net.page.doc.value).Failure?)
    ensures var run := DownloadImage(st, url, filePath, net);
            run.outcome.Failed? && run.fetched == [url] && run.store.files == st.files
  {
  }

  /** The images directory is created after the status check and before
      parsing: a 200 page that fails to parse or has no photo still leaves
      the directory behind. */
  lemma DirectoryCreatedBeforeParsing(st: FileStore.Store, url: string, filePath: string, net: Net)
    requires net.page.PageResponse? && net.page.status == StatusOK
    requires ImageDir !in st.files
    requires net.page.doc.None? || Markup.FindImage(net.page.doc.value).Failure?
    ensures var run := DownloadImage(st, url, filePath, net);
            FileStore.IsDir(run.store, ImageDir) && run.outcome.Failed?
            && run.outcome.error == (if net.page.doc.None? then ParseFailed else NoPhoto)
  {
  }

  /** The status of the image fetch is never checked: any two answers with
      the same body lead to the same run. */
  lemma ImageStatusIgnored(st: FileStore.Store, url: string, filePath: string, page: PageFetch,
                           s1: int, s2: int, body: seq<byte>, complete: bool)
    ensures DownloadImage(st, url, filePath, Net(page, ImageResponse(s1, body, complete)))
         == DownloadImage(st, url, filePath, Net(page, ImageResponse(s2, body, complete)))
  {
  }

  /** A remote reference is fetched second and its body, whatever the
      status (a 404 page included), is stored under the unsuffixed path. */
  lemma RemoteReferenceStored(st: FileStore.Store, url: string, filePath: string, net: Net, tree: Markup.Node)
    requires PageParsed(net, tree) && ImageDir !in st.files
    requires Markup.FindImage(tree).Success?
    requires Reference.Classify(Markup.FindImage(tree).value) == Reference.Remote
    requires net.image.ImageResponse? && net.image.complete
    requires filePath != ImageDir && !FileStore.IsDir(st, filePath)
    ensures var run := DownloadImage(st, url, filePath, net);
            && run.fetched == [url, Markup.FindImage(tree).value]
            && run.outcome == Done
            && filePath in run.store.files && run.store.files[filePath] == net.image.body
            && forall p :: p != filePath ==> FileStore.Unchanged(st, run.store, p)
  {
  }

  /** An inline reference makes no second fetch; its decoded bytes go to
      `filePath + ".svg"` and nothing is written at `filePath`. */
  lemma InlineReferenceStored(st: FileStore.Store, url: string, filePath: string, net: Net, tree: Markup.Node)
    requires PageParsed(net, tree) && ImageDir !in st.files
    requires Markup.FindImage(tree).Success?
    requires Reference.Classify(Markup.FindImage(tree).value) == Reference.Inline
    requires Reference.DecodeInline(Markup.FindImage(tree).value).Success?
    requires !FileStore.IsDir(st, SvgPath(filePath)) && SvgPath(filePath) != ImageDir
    ensures var run := DownloadImage(st, url, filePath, net);
            && run.fetched == [url]
            && run.outcome == Done
            && SvgPath(filePath) in run.store.files
            && run.store.files[SvgPath(filePath)] == Reference.DecodeInline(Markup.FindImage(tree).value).value
            && forall p :: p != SvgPath(filePath) ==> FileStore.Unchanged(st, run.store, p)
  {
    assert filePath != SvgPath(filePath) by {
      assert |SvgPath(filePath)| == |filePath| + 4;
    }
  }

  /** A failure to reach the image, or to decode an inline one, returns
      before any file is created: the files are as they were. */
  lemma ImageFailureWritesNothing(st: FileStore.Store, url: string, filePath: string, net: Net, tree: Markup.Node)
    requires PageParsed(net, tree) && ImageDir !in st.files
    requires Markup.FindImage(tree).Success?
    requires || (Reference.Classify(Markup.FindImage(tree).value) == Reference.Remote && net.image.ImageUnreachable?)
             || (Reference.Classify(Markup.FindImage(tree).value) == Reference.Inline &&
                 Reference.DecodeInline(Markup.FindImage(tree).value).Failure?)
    ensures var run := DownloadImage(st, url, filePath, net);
            && (run.outcome == Failed(ImageConnectFailed) || (run.outcome.Failed? && run.outcome.error.InlineDecodeFailed?))
            && run.store.files == st.files
  {
  }

  /** A reference that is neither remote nor inline never succeeds. The
      plain path is created empty and the copy from the nil reader panics,
      unless that path is a directory (the images directory included, once
      created), in which case `os.Create` fails and no file changes. */
  lemma UnsupportedReferenceFails(st: FileStore.Store, url: string, filePath: string, net: Net, tree: Markup.Node)
    requires PageParsed(net, tree) && ImageDir !in st.files
    requires Markup.FindImage(tree).Success?
    requires Reference.Classify(Markup.FindImage(tree).value) == Reference.Unsupported
    ensures var run := DownloadImage(st, url, filePath, net);
            && run.fetched == [url]
            && (run.outcome == Panicked <==> filePath != ImageDir && !FileStore.IsDir(st, filePath))
            && (run.outcome != Panicked ==> run.outcome == Failed(CreateFailed) && run.store.files == st.files)
            && (run.outcome == Panicked ==> run.store.files == st.files[filePath := []])
  {
  }

  /** The empty file a panicking request leaves behind poisons the cache:
      the request crashes, and the same request afterwards, whatever the
      network would say, is answered at once as cached with no fetch and no
      change. */
  lemma UnsupportedThenCached(st: FileStore.Store, link: string, net1: Net, net2: Net, tree: Markup.Node)
    requires PageParsed(net1, tree) && ImageDir !in st.files
    requires Markup.FindImage(tree).Success?
    requires Reference.Classify(Markup.FindImage(tree).value) == Reference.Unsupported
    requires !FileStore.Exists(st, ImagePath(ExtractImageName(link))) && ImagePath(ExtractImageName(link)) != ImageDir
    ensures var first := HandleRequest(st, link, net1);
            && first.reply == Crashed
            && HandleRequest(first.store, link, net2) == Response(first.store, Cached(Endpoint(ExtractImageName(link))), [])
  {
    var path := ImagePath(ExtractImageName(link));
    UnsupportedReferenceFails(st, link, path, net1, tree);
  }

  /** Idempotence for remote images: once a request has downloaded one, a
      second request for the same link, whatever the network would say,
      fetches nothing, changes nothing and returns the same endpoint. */
  lemma {:induction false} RemoteDownloadThenCached(st: FileStore.Store, link: string, net1: Net, net2: Net, tree: Markup.Node)
    requires PageParsed(net1, tree)
    requires Markup.FindImage(tree).Success?
    requires Reference.Classify(Markup.FindImage(tree).value) == Reference.Remote
    requires HandleRequest(st, link, net1).reply.Downloaded?
    ensures var first := HandleRequest(st, link, net1);
            HandleRequest(first.store, link, net2) == Response(first.store, Cached(first.reply.endpoint), [])
  {
    var first := HandleRequest(st, link, net1);
    var path := ImagePath(ExtractImageName(link));
    var withDir := FileStore.MkdirAll(st, ImageDir).value;
    var run := Retrieve(withDir, link, Markup.FindImage(tree).value, path, net1.image);
    assert first.store == run.store;
    assert run.outcome == Done;
    assert path in run.store.files;
  }

  /** Inline images never hit the cache: the check looks for the unsuffixed
      name, which the inline path never writes, so a repeated request for an
      ordinary name downloads again. */
  lemma InlineNeverCached(st: FileStore.Store, link: string, net: Net, tree: Markup.Node)
    requires ExtractImageName(link) !in {"", ".", ".."}
    requires FileStore.Valid(st) && !FileStore.Exists(st, ImagePath(ExtractImageName(link)))
    requires PageParsed(net, tree)
    requires Markup.FindImage(tree).Success?
    requires Reference.Classify(Markup.FindImage(tree).value) == Reference.Inline
    ensures var first := HandleRequest(st, link, net);
            && !FileStore.Exists(first.store, ImagePath(ExtractImageName(link)))
            && HandleRequest(first.store, link, net).fetched[0] == link
  {
    var name := ExtractImageName(link);
    var path := ImagePath(name);
    assert path == ImageDir + [Separator] + name;
    assert path != ImageDir && path != WorkingDir by {
      assert |path| > |ImageDir|;
    }
    if ImageDir !in st.files {
      var withDir := FileStore.MkdirAll(st, ImageDir).value;
      assert !FileStore.Exists(withDir, path);
    }
  }

  /** Names that `filepath.Join` folds into a directory hit the "cache"
      without any download: a link ending in `/` (empty name) once the
      images directory exists, and a link ending in `/..` always. */
  lemma DirectoryNamesAnswerAtOnce(st: FileStore.Store, link: string, net: Net)
    requires (|link| > 0 && link[|link| - 1] == Separator && FileStore.IsDir(st, ImageDir))
             || ExtractImageName(link) == ".."
    ensures HandleRequest(st, link, net).fetched == []
    ensures HandleRequest(st, link, net).reply == Cached(Endpoint(ExtractImageName(link)))
  {
    ExtractImageNameEdges(link);
  }

  /** Two stores that agree everywhere except `path`, where the second
      holds `v`, differ by exactly that one write. */
  lemma SingleWrite(st: FileStore.Store, st': FileStore.Store, path: string, v: seq<byte>)
    requires path in st'.files && st'.files[path] == v
    requires forall p :: p != path ==> FileStore.Unchanged(st, st', p)
    ensures st'.files == st.files[path := v]
  {
    forall p | p != path
      ensures p in st'.files <==> p in st.files
      ensures p in st.files ==> st'.files[p] == st.files[p]
    {
      assert FileStore.Unchanged(st, st', p);
    }
  }

  /** A first request whose page names a remote photo writes exactly one
      file, the body, under the unsuffixed name, after fetching the link
      and then the photo. */
  lemma RemoteRequestStored(st: FileStore.Store, link: string, net: Net, tree: Markup.Node)
    requires !FileStore.Exists(st, ImagePath(ExtractImageName(link)))
    requires ImagePath(ExtractImageName(link)) != ImageDir && ImageDir !in st.files
    requires PageParsed(net, tree) && Markup.FindImage(tree).Success?
    requires Reference.Classify(Markup.FindImage(tree).value) == Reference.Remote
    requires net.image.ImageResponse? && net.image.complete
    ensures var resp := HandleRequest(st, link, net);
            && resp.fetched == [link, Markup.FindImage(tree).value]
            && resp.reply == Downloaded(Endpoint(ExtractImageName(link)))
            && resp.store.files == st.files[ImagePath(ExtractImageName(link)) := net.image.body]
  {
    var path := ImagePath(ExtractImageName(link));
    RemoteReferenceStored(st, link, path, net, tree);
    var run := DownloadImage(st, link, path, net);
    SingleWrite(st, run.store, path, net.image.body);
  }

  /** A first request whose page carries an inline photo writes exactly one
      file, the decoded bytes, under the name plus `.svg`, and fetches only
      the link. */
  lemma InlineRequestStored(st: FileStore.Store, link: string, net: Net, tree: Markup.Node)
    requires !FileStore.Exists(st, ImagePath(ExtractImageName(link)))
    requires !FileStore.IsDir(st, SvgPath(ImagePath(ExtractImageName(link))))
    requires SvgPath(ImagePath(ExtractImageName(link))) != ImageDir && ImageDir !in st.files
    requires PageParsed(net, tree) && Markup.FindImage(tree).Success?
    requires Reference.Classify(Markup.FindImage(tree).value) == Reference.Inline
    requires Reference.DecodeInline(Markup.FindImage(tree).value).Success?
    ensures var resp := HandleRequest(st, link, net);
            && resp.fetched == [link]
            && resp.reply == Downloaded(Endpoint(ExtractImageName(link)))
            && resp.store.files == st.files[SvgPath(ImagePath(ExtractImageName(link))) :=
                                             Reference.DecodeInline(Markup.FindImage(tree).value).value]
  {
    var path := ImagePath(ExtractImageName(link));
    InlineReferenceStored(st, link, path, net, tree);
    var run := DownloadImage(st, link, path, net);
    SingleWrite(st, run.store, SvgPath(path), Reference.DecodeInline(Markup.FindImage(tree).value).value);
  }
}

=== FILE: reference.dfy ===
/** What the scanner found: classifying the image reference (the prefix
    dispatch in `downloadImage`) and decoding an inline one
    (`downloadImagebase64`). */
module Reference {
  import opened Wrappers
  import Percent
  import Base64

  predicate HasPrefix(s: string, prefix: string)
  {
    |prefix| <= |s| && s[..|prefix|] == prefix
  }

  const RemotePrefix: string := "http"
  const InlinePrefix: string := "data:image"

  /** The retrieval strategy a reference selects. */
  datatype ReferenceKind = Remote | Inline | Unsupported

  /** Remote when the reference starts with `http`, otherwise inline when it
      starts with `data:image`, otherwise neither. */
  function Classify(ref: string): (k: ReferenceKind)
    ensures k == Remote <==> HasPrefix(ref, RemotePrefix)
    ensures k == Inline <==> HasPrefix(ref, InlinePrefix)
    ensures k == Unsupported <==> !HasPrefix(ref, RemotePrefix) && !HasPrefix(ref, InlinePrefix)
  {
    PrefixesExclusive(ref);
    if HasPrefix(ref, RemotePrefix) then Remote
    else if HasPrefix(ref, InlinePrefix) then Inline
    else Unsupported
  }

  /** No reference has both prefixes, so the order of the two tests does
      not matter. */
  lemma PrefixesExclusive(ref: string)
    ensures !(HasPrefix(ref, RemotePrefix) && HasPrefix(ref, InlinePrefix))
  {
    if HasPrefix(ref, RemotePrefix) {
      assert ref[0] == RemotePrefix[0] != InlinePrefix[0];
    }
  }

  lemma ClassifyExamples()
    ensures Classify("https://x/y.png") == Remote
    ensures Classify("data:image/png;base64,AAAA") == Inline
    ensures Classify("ftp://x") == Unsupported
    ensures Classify("data:text/plain,hi") == Unsupported
    ensures Classify("httpfoo") == Remote
  {
    assert "https://x/y.png"[..4] == RemotePrefix;
    assert "data:image/png;base64,AAAA"[..10] == InlinePrefix;
    assert "ftp://x"[0] != 'h' && "ftp://x"[0] != 'd';
    var t := "data:text/plain,hi";
    assert t[0] == 'd' && t[5] == 't';
    assert !HasPrefix(t, RemotePrefix);
    assert !HasPrefix(t, InlinePrefix) by {
      assert t[..10][5] == 't' != InlinePrefix[5];
    }
    assert "httpfoo"[..4] == RemotePrefix;
  }

  /** Why decoding an inline reference failed. */
  datatype InlineError = MissingComma | BadEscape(cause: Percent.EscapeError) | BadBase64

  /** Position of the first comma, if any. */
  function FirstComma(s: string): (r: Option<nat>)
    ensures r.None? <==> ',' !in s
    ensures r.Some? ==> r.value < |s| && s[r.value] == ',' && ',' !in s[..r.value]
  {
    if |s| == 0 then None
    else if s[0] == ',' then Some(0)
    else
      match FirstComma(s[1..])
      case None => None
      case Some(i) =>
        assert s[..i + 1] == [s[0]] + s[1..][..i];
        Some(i + 1)
  }

  /** `downloadImagebase64`: everything after the first comma is the
      payload; it is percent-decoded form-style, then base64-decoded. */
  function DecodeInline(uri: string): (r: Result<seq<byte>, InlineError>)
    ensures ',' !in uri <==> r == Failure(MissingComma)
  {
    match FirstComma(uri)
    case None => Failure(MissingComma)
    case Some(i) =>
      match Percent.QueryUnescape(uri[i + 1..])
      case Failure(e) => Failure(BadEscape(e))
      case Success(text) =>
        match Base64.Decode(text)
        case Failure(_) => Failure(BadBase64)
        case Success(bytes) => Success(bytes)
  }

  /** The split is at the FIRST comma: the header before it is ignored, and
      whatever follows, further commas included, is the payload. */
  lemma SplitAtFirstComma(header: string, payload: string)
    requires ',' !in header
    ensures DecodeInline(header + "," + payload) == DecodeInline("," + payload)
  {
    var uri := header + "," + payload;
    assert uri[|header|] == ',';
    assert uri[..|header|] == header;
    assert FirstComma(uri) == Some(|header|);
    assert uri[|header| + 1..] == payload;
    assert ("," + payload)[1..] == payload;
  }

  /** A payload with a malformed escape fails with that escape's error,
      before base64 is tried. */
  lemma BadEscapeRejected(header: string, payload: string)
    requires ',' !in header
    requires Percent.QueryUnescape(payload).Failure?
    ensures DecodeInline(header + "," + payload) == Failure(BadEscape(Percent.QueryUnescape(payload).error))
  {
    SplitAtFirstComma(header, payload);
    assert ("," + payload)[1..] == payload;
  }

  /** A payload that unescapes but is not valid base64 (a foreign
      character, a bad length, misplaced padding) fails as bad base64. */
  lemma BadBase64Rejected(header: string, payload: string)
    requires ',' !in header
    requires Percent.QueryUnescape(payload).Success?
    requires Base64.Decode(Percent.QueryUnescape(payload).value).Failure?
    ensures DecodeInline(header + "," + payload) == Failure(BadBase64)
  {
    SplitAtFirstComma(header, payload);
    assert ("," + payload)[1..] == payload;
  }

  /** A payload character that no escape can absorb and that is not base64
      once unescaped makes decoding fail. */
  predicate IsForeign(c: char)
  {
    && c != '%' && !Percent.IsHex(c)
    && var d := Percent.Literal(c);
       !Base64.InAlphabet(d) && d != Base64.Pad && d != '\r' && d != '\n'
  }

  lemma PayloadForeignCharRejected(header: string, payload: string, j: nat)
    requires ',' !in header
    requires j < |payload| && IsForeign(payload[j])
    ensures DecodeInline(header + "," + payload).Failure?
  {
    SplitAtFirstComma(header, payload);
    var uri := "," + payload;
    assert FirstComma(uri) == Some(0);
    assert uri[1..] == payload;
    var u := Percent.QueryUnescape(payload);
    if u.Success? {
      Percent.UnescapeKeepsLiteral(payload, j);
      var c := Percent.Literal(payload[j]);
      var k :| 0 <= k < |u.value| && u.value[k] == c;
      Base64.ForeignCharRejected(u.value, k);
    }
  }

  /** A literal comma, space or `+` in the payload makes decoding fail: the
      first two survive percent-decoding and `+` becomes a space, and none
      of them is base64. So a later comma is never a second separator, and
      a payload whose `+` was not escaped as `%2B` is rejected. */
  lemma PayloadLiteralRejected(header: string, payload: string, j: nat)
    requires ',' !in header
    requires j < |payload| && payload[j] in ", +"
    ensures DecodeInline(header + "," + payload).Failure?
  {
    PayloadForeignCharRejected(header, payload, j);
  }

  lemma AsciiIsByte(s: string)
    requires Base64.IsBase64Text(s)
    ensures IsByteString(s)
  {
    forall i | 0 <= i < |s|
      ensures s[i] as int < 256
    {
      if Base64.InAlphabet(s[i]) {
        var v := Base64.Sextet(s[i]).value;
        assert s[i] == Base64.SextetChar(v);
      }
    }
  }

  /** Inline round trip: any bytes, base64-encoded, percent-escaped and put
      after a comma-free header, decode back to themselves. */
  lemma InlineRoundTrip(header: string, bytes: seq<byte>)
    requires ',' !in header
    ensures DecodeInline(header + "," + Percent.QueryEscape(Base64.Encode(bytes))) == Success(bytes)
  {
    var b64 := Base64.Encode(bytes);
    AsciiIsByte(b64);
    var payload := Percent.QueryEscape(b64);
    SplitAtFirstComma(header, payload);
    assert ("," + payload)[1..] == payload;
    Percent.UnescapeEscape(b64);
    Base64.DecodeEncode(bytes);
  }

  /** A raw payload, base64 text put straight after the comma as data URIs
      usually carry it, decodes too: base64 text has no `%`, so unescaping
      leaves it alone, provided it has no `+` (which would become a
      space). */
  lemma RawPayloadDecodes(header: string, bytes: seq<byte>)
    requires ',' !in header && '+' !in Base64.Encode(bytes)
    ensures DecodeInline(header + "," + Base64.Encode(bytes)) == Success(bytes)
  {
    var t := Base64.Encode(bytes);
    forall i | 0 <= i < |t|
      ensures t[i] != '%'
    {
      if Base64.InAlphabet(t[i]) {
        var v := Base64.Sextet(t[i]).value;
        assert t[i] == Base64.SextetChar(v);
      }
    }
    Percent.UnescapePlain(t);
    SplitAtFirstComma(header, t);
    assert ("," + t)[1..] == t;
    Base64.DecodeEncode(bytes);
  }

  /** Examples of each failure: no comma at all, a malformed escape, a
      bad base64 length, and characters outside the base64 alphabet. */
  lemma MissingCommaExample()
    ensures DecodeInline("data:image/png;base64") == Failure(MissingComma)
  {
    var uri := "data:image/png;base64";
    assert forall i :: 0 <= i < |uri| ==> uri[i] != ',';
  }

  lemma BadEscapeExample()
    ensures var r := DecodeInline("data:image/png;base64" + "," + "%zz"); r.Failure? && r.error.BadEscape?
  {
    var header, payload := "data:image/png;base64", "%zz";
    assert forall i :: 0 <= i < |header| ==> header[i] != ',';
    assert Percent.BadEscapeAt(payload, 0);
    BadEscapeRejected(header, payload);
  }

  lemma BadLengthExample()
    ensures DecodeInline("data:image/png;base64" + "," + "QQ") == Failure(BadBase64)
  {
    var header, payload := "data:image/png;base64", "QQ";
    assert forall i :: 0 <= i < |header| ==> header[i] != ',';
    Percent.UnescapePlain(payload);
    Base64.NoNewlinesStrip(payload);
    Base64.BadLengthRejected(payload);
    BadBase64Rejected(header, payload);
  }

  lemma NotBase64Example()
    ensures DecodeInline("data:image/png;base64,not_base64!!").Failure?
  {
    var header, payload := "data:image/png;base64", "not_base64!!";
    assert forall i :: 0 <= i < |header| ==> header[i] != ',';
    assert header + "," + payload == "data:image/png;base64,not_base64!!";
    assert payload[3] == '_';
    PayloadForeignCharRejected(header, payload, 3);
  }
}

=== FILE: scenarios.dfy ===
/** Examples: end-to-end requests worked through the model. Each
    concrete fact is its own small lemma. */
module Scenarios {
  import opened Wrappers
  import opened Names
  import Markup
  import Percent
  import Base64
  import Reference
  import FileStore
  import opened Handler
  import HandlerProperties

  const Link: string := "https://t.me/channel/123"

  /** A preview page whose only photo image has the given `src`. */
  function PreviewPage(src: string): Markup.Node
  {
    var photo := Markup.Node(Markup.ElementNode, "img",
      [Markup.Attribute("class", Markup.PhotoClass), Markup.Attribute("src", src)], []);
    Markup.Node(Markup.DocumentNode, "", [], [Markup.Node(Markup.ElementNode, "body", [], [photo])])
  }

  lemma PreviewPageFound(src: string)
    requires src != ""
    ensures Markup.FindImage(PreviewPage(src)) == Success(src)
  {
    var photo := Markup.Node(Markup.ElementNode, "img",
      [Markup.Attribute("class", Markup.PhotoClass), Markup.Attribute("src", src)], []);
    assert photo.attrs[0].key == "class";
    assert photo.attrs[1..] == [Markup.Attribute("src", src)];
    assert "class" != "src";
    assert Markup.FirstSrc(photo.attrs) == Some(src);
    assert Markup.SearchChildren([photo]) == src;
    var body := Markup.Node(Markup.ElementNode, "body", [], [photo]);
    assert Markup.Search(body) == src;
    assert Markup.SearchChildren([body]) == src;
  }

  /** The link's cache key is `123`. */
  lemma LinkName()
    ensures ExtractImageName(Link) == "123"
  {
    var t := "123";
    assert Link[21..] == t;
    assert Link[20] == '/';
    assert '/' !in t;
    ExtractImageNameUnique(Link, t);
  }

  lemma NamePaths()
    ensures ImagePath("123") == "images/123"
    ensures Endpoint("123") == "/static/123"
    ensures SvgPath("images/123") == "images/123.svg"
  {
    assert "123" != "" && "123" != "." && "123" != "..";
  }

  lemma PathsAreNotDirectories()
    ensures "images/123" != ImageDir && "images/123" != WorkingDir
    ensures "images/123.svg" != ImageDir && "images/123.svg" != WorkingDir
  {
  }

  /** Scenario A: for a page whose scanner finds a remote photo (such as
      `PreviewPage(src)`), the photo is fetched second and stored as
      `images/123`, whatever the image fetch's status; the endpoint is
      `/static/123`. */
  lemma RemoteScenario(link: string, page: Markup.Node, src: string, body: seq<byte>, status: int)
    requires ExtractImageName(link) == "123"
    requires Markup.FindImage(page) == Success(src) && Reference.HasPrefix(src, Reference.RemotePrefix)
    ensures var net := Net(PageResponse(StatusOK, Some(page)),
                           ImageResponse(status, body, true));
            var resp := HandleRequest(FileStore.Store(map[], {}), link, net);
            && resp.fetched == [link, src]
            && resp.reply == Downloaded("/static/123")
            && resp.store.files == map["images/123" := body]
  {
    var net := Net(PageResponse(StatusOK, Some(page)), ImageResponse(status, body, true));
    var st := FileStore.Store(map[], {});
    assert ImagePath(ExtractImageName(link)) == "images/123" && Endpoint(ExtractImageName(link)) == "/static/123" by {
      NamePaths();
    }
    assert !FileStore.Exists(st, "images/123") && "images/123" != ImageDir by {
      PathsAreNotDirectories();
    }
    HandlerProperties.RemoteRequestStored(st, link, net, page);
  }

  /** An inline reference carrying `bytes`: a `data:image` header, a comma,
      and the base64 text percent-escaped. */
  function InlineUri(header: string, bytes: seq<byte>): string
  {
    Reference.AsciiIsByte(Base64.Encode(bytes));
    header + "," + Percent.QueryEscape(Base64.Encode(bytes))
  }

  lemma InlineUriClassified(header: string, bytes: seq<byte>)
    requires Reference.HasPrefix(header, Reference.InlinePrefix)
    ensures Reference.Classify(InlineUri(header, bytes)) == Reference.Inline
  {
    var uri := InlineUri(header, bytes);
    assert uri[..|Reference.InlinePrefix|] == header[..|Reference.InlinePrefix|];
  }

  /** Such a reference is classified inline and decodes back to `bytes`. */
  lemma InlineUriDecodes(header: string, bytes: seq<byte>)
    requires Reference.HasPrefix(header, Reference.InlinePrefix) && ',' !in header
    ensures Reference.Classify(InlineUri(header, bytes)) == Reference.Inline
    ensures Reference.DecodeInline(InlineUri(header, bytes)) == Success(bytes)
  {
    InlineUriClassified(header, bytes);
    Reference.InlineRoundTrip(header, bytes);
  }

  /** Scenario B: for a page whose scanner finds an inline photo with a
      percent-escaped payload, there is no second fetch and the decoded
      bytes are stored under `images/123.svg`; the endpoint is still
      `/static/123`. */
  lemma InlineScenario(link: string, page: Markup.Node, header: string, bytes: seq<byte>, image: ImageFetch)
    requires ExtractImageName(link) == "123"
    requires Reference.HasPrefix(header, Reference.InlinePrefix) && ',' !in header
    requires Markup.FindImage(page) == Success(InlineUri(header, bytes))
    ensures var net := Net(PageResponse(StatusOK, Some(page)), image);
            var resp := HandleRequest(FileStore.Store(map[], {}), link, net);
            && resp.fetched == [link]
            && resp.reply == Downloaded("/static/123")
            && resp.store.files == map["images/123.svg" := bytes]
  {
    var net := Net(PageResponse(StatusOK, Some(page)), image);
    var st := FileStore.Store(map[], {});
    assert ImagePath(ExtractImageName(link)) == "images/123" && Endpoint(ExtractImageName(link)) == "/static/123"
        && SvgPath("images/123") == "images/123.svg" by {
      NamePaths();
    }
    assert !FileStore.Exists(st, "images/123") && !FileStore.IsDir(st, "images/123.svg")
        && "images/123.svg" != ImageDir by {
      PathsAreNotDirectories();
    }
    InlineUriDecodes(header, bytes);
    HandlerProperties.InlineRequestStored(st, link, net, page);
  }

  /** The bytes of `<svg></svg>`. */
  const SvgBytes: seq<byte> := [60, 115, 118, 103, 62, 60, 47, 115, 118, 103, 62]

  /** The four groups of `<svg></svg>`'s encoding. */
  lemma SvgGroups()
    ensures Base64.EncodeGroup(60, 115, 118) == "PHN2"
    ensures Base64.EncodeGroup(103, 62, 60) == "Zz48"
    ensures Base64.EncodeGroup(47, 115, 118) == "L3N2"
    ensures Base64.EncodeGroup(103, 62, 0)[..3] == "Zz4"
  {
  }

  /** `PHN2Zz48L3N2Zz4=` is the standard encoding of `<svg></svg>`. */
  lemma SvgEncoding()
    ensures Base64.Encode(SvgBytes) == "PHN2Zz48L3N2Zz4="
  {
    var last: seq<byte> := [103, 62];
    var r2 := [47 as byte, 115, 118] + last;
    var r1 := [103 as byte, 62, 60] + r2;
    assert SvgBytes == [60 as byte, 115, 118] + r1;
    SvgGroups();
    assert Base64.Encode(last) == "Zz4=";
    Base64.EncodeStep(47, 115, 118, last);
    Base64.EncodeStep(103, 62, 60, r2);
    Base64.EncodeStep(60, 115, 118, r1);
  }

  /** The header of the raw reference. */
  lemma SvgHeader(header: string)
    requires header == "data:image/svg+xml;base64"
    ensures Reference.HasPrefix(header, Reference.InlinePrefix) && ',' !in header
  {
    assert header[..|Reference.InlinePrefix|] == Reference.InlinePrefix;
    assert forall i :: 0 <= i < |header| ==> header[i] != ',';
  }

  /** Scenario B with a raw payload, as data URIs usually carry one: the
      reference `data:image/svg+xml;base64,PHN2Zz48L3N2Zz4=` is decoded to
      `<svg></svg>` and stored under `images/123.svg`, with no second
      fetch. */
  lemma RawInlineScenario(link: string, page: Markup.Node, header: string, payload: string, image: ImageFetch)
    requires ExtractImageName(link) == "123"
    requires header == "data:image/svg+xml;base64" && payload == "PHN2Zz48L3N2Zz4="
    requires Markup.FindImage(page) == Success(header + "," + payload)
    ensures var net := Net(PageResponse(StatusOK, Some(page)), image);
            var resp := HandleRequest(FileStore.Store(map[], {}), link, net);
            && resp.fetched == [link]
            && resp.reply == Downloaded("/static/123")
            && resp.store.files == map["images/123.svg" := SvgBytes]
  {
    var net := Net(PageResponse(StatusOK, Some(page)), image);
    var st := FileStore.Store(map[], {});
    assert ImagePath(ExtractImageName(link)) == "images/123" && Endpoint(ExtractImageName(link)) == "/static/123"
        && SvgPath("images/123") == "images/123.svg" by {
      NamePaths();
    }
    assert !FileStore.Exists(st, "images/123") && !FileStore.IsDir(st, "images/123.svg")
        && "images/123.svg" != ImageDir by {
      PathsAreNotDirectories();
    }
    SvgHeader(header);
    RawReferenceDecodes(header, payload);
    HandlerProperties.InlineRequestStored(st, link, net, page);
  }

  lemma RawReferenceDecodes(header: string, payload: string)
    requires Reference.HasPrefix(header, Reference.InlinePrefix) && ',' !in header
    requires payload == "PHN2Zz48L3N2Zz4="
    ensures Reference.Classify(header + "," + payload) == Reference.Inline
    ensures Reference.DecodeInline(header + "," + payload) == Success(SvgBytes)
  {
    assert (header + "," + payload)[..|Reference.InlinePrefix|] == header[..|Reference.InlinePrefix|];
    SvgEncoding();
    assert forall i :: 0 <= i < |payload| ==> payload[i] != '+';
    Reference.RawPayloadDecodes(header, SvgBytes);
  }

  /** The cache-hit scenario: with `images/123` present, nothing is fetched
      and `/static/123` comes back at once. */
  lemma CachedScenario(contents: seq<byte>, net: Net)
    ensures var st := FileStore.Store(map["images/123" := contents], {"images"});
            HandleRequest(st, Link, net) == Response(st, Cached("/static/123"), [])
  {
    LinkName();
    NamePaths();
  }
}

=== FILE: store.dfy ===
/** The flat file store behind the images directory: the few filesystem
    calls the handler makes (`os.Stat`, `os.MkdirAll`, `os.Create`,
    `io.Copy`), over a map from path to contents and a set of directories. */
module FileStore {
  import opened Wrappers
  import Names

  datatype Store = Store(files: map<string, seq<byte>>, dirs: set<string>)

  datatype FsError = NotADirectory | IsADirectory

  /** No path is both a file and a directory, and the working directory is
      not a file. */
  predicate Valid(st: Store)
  {
    && (forall p :: p in st.files ==> p !in st.dirs)
    && Names.WorkingDir !in st.files
  }

  predicate IsDir(st: Store, path: string)
  {
    path in st.dirs || path == Names.WorkingDir
  }

  /** `fileExists`: `os.Stat` succeeds for any file or directory; the
      contents are not looked at, so an empty file counts. */
  predicate Exists(st: Store, path: string)
  {
    path in st.files || IsDir(st, path)
  }

  /** `os.MkdirAll`: succeeds, creating the directory if needed, unless a
      file is already in the way. */
  function MkdirAll(st: Store, dir: string): (r: Result<Store, FsError>)
    ensures r.Success? <==> dir !in st.files
    ensures r.Success? ==> IsDir(r.value, dir) && r.value.files == st.files
    ensures r.Success? ==> forall p :: IsDir(st, p) ==> IsDir(r.value, p)
    ensures r.Success? && Valid(st) ==> Valid(r.value)
  {
    if dir in st.files then Failure(NotADirectory)
    else Success(st.(dirs := st.dirs + {dir}))
  }

  /** `os.Create`: creates or truncates a file to empty; fails on a
      directory. */
  function Create(st: Store, path: string): (r: Result<Store, FsError>)
    ensures r.Success? <==> !IsDir(st, path)
    ensures r.Success? ==> path in r.value.files && r.value.files[path] == []
    ensures r.Success? ==> forall p :: p != path ==> Unchanged(st, r.value, p)
    ensures r.Success? ==> r.value.dirs == st.dirs
    ensures r.Success? && Valid(st) ==> Valid(r.value)
  {
    if IsDir(st, path) then Failure(IsADirectory)
    else Success(st.(files := st.files[path := []]))
  }

  /** Copying bytes into a file just created leaves it holding exactly
      those bytes. */
  function Write(st: Store, path: string, bytes: seq<byte>): (r: Store)
    requires path in st.files
    ensures path in r.files && r.files[path] == bytes
    ensures forall p :: p != path ==> Unchanged(st, r, p)
    ensures r.dirs == st.dirs
    ensures Valid(st) ==> Valid(r)
  {
    st.(files := st.files[path := bytes])
  }

  /** No call the handler makes removes an entry: whatever `fileExists`
      found before a successful call it still finds afterwards, a created
      directory or file exists even while the file is empty, and writing
      contents changes no path's existence. */
  lemma ExistsPersists(st: Store, p: string, dir: string, path: string, bytes: seq<byte>)
    ensures MkdirAll(st, dir).Success? ==>
              Exists(MkdirAll(st, dir).value, dir) && (Exists(st, p) ==> Exists(MkdirAll(st, dir).value, p))
    ensures Create(st, path).Success? ==>
              Exists(Create(st, path).value, path) && (Exists(st, p) ==> Exists(Create(st, path).value, p))
    ensures path in st.files ==> (Exists(Write(st, path, bytes), p) <==> Exists(st, p))
  {
  }

  /** `p` is a file in both stores with the same contents, or a file in
      neither; directories are compared separately. */
  predicate Unchanged(st: Store, st': Store, p: string)
  {
    && (p in st.files <==> p in st'.files)
    && (p in st.files ==> st.files[p] == st'.files[p])
  }
}

=== FILE: wrappers.dfy ===
/** Failure-carrying result types and the byte type shared by the whole model. */
module Wrappers {

  /** A value that may be absent. */
  datatype Option<+T> = None | Some(value: T)

  /** Either a value or an error, the model of Go's `(value, error)` pair. */
  datatype Result<+R, +E> = Success(value: R) | Failure(error: E)

  /** One octet, the element of Go's `[]byte`. */
  newtype byte = x: int | 0 <= x < 256

  /** Go strings are byte strings: a `string` of this model stands for one
      whose every character is a single byte value. */
  predicate IsByteString(s: string)
  {
    forall i :: 0 <= i < |s| ==> s[i] as int < 256
  }
}
